=== FILE: README.md ===
# Samba transfer manager, modelled in Dafny

This project models the Samba storage plugin of Syncany:
- the transfer manager, which maps typed remote files onto a Samba share and
  performs `connect`, `init`, `download`, `upload`, `delete`, `move`, `list`
  and the four probes;
- the plugin's settings: five nullable strings, their option specifications,
  `init` from an option map, and `toString`.

The share and the local disk are values. A `World` holds the share as a map
from location to file or directory, the local disk as a map from path to
bytes, and a trace of every backend call. Each operation takes the world and
the set of calls that fail, and returns the new world with how it ended.
Exceptions are values of `Results.Failure`.

Addresses follow the source closely:
- the text `repoPath + "/" + path + "/" + folder + "/" + name` is built as the source builds it;
- `URI.create` refuses it (approximated by a set of refused characters) or splits it into authority and path;
- `normalize` removes dot segments as in section 5.2 of RFC 2396;
- the share is reached at the normalised path's segments.

The proofs therefore cover the real layout. Examples:
- a category folder is the parent of that category's files;
- upload's temporary file sits at the root;
- a name holding `..` can leave its folder, because `createSmbFile` does not reject it.

Modules:
- `Results`: null, results and exception kinds;
- `Paths`: segments and dot-segment removal;
- `Uri`: `URI.create`, `normalize`, `toString`;
- `RemoteFiles`: remote-file classes and the folder router;
- `Store`: share and local-disk primitives;
- `TransferSettings`: the settings class;
- `Addresses`: constructor fields and `createSmbFile`;
- `Probes`: the four probes;
- `Transfers`: the transfer operations.

Behaviour of the code that the model follows:
- `init` is not idempotent. `mkdir` of an existing folder fails, so a second `init` fails (`Transfers.InitTwiceFails`).
- `createSmbFile` does not reject `..` in a name. Normalisation resolves it like any other dot segment, so such a name lands outside its category folder (`Addresses.DotDotEscapesFolder`). Whether the remote-file name patterns admit such a name at all is outside this model.
- `init(Map)` hands the whole map to the option validator. A rejection surfaces as its storage error and no field is assigned. What that error reports about missing keys is up to the validator, which is not part of this model.
- `move` rethrows a refused address (the unchecked `IllegalArgumentException` of `URI.create`) as a `StorageException`. The probes turn it into `false`. The other operations let it escape unchanged.
- `download`'s guard `name.equals(".") && !name.equals("..")` reduces to `name == "."`.

## Model

| member | source | states |
|---|---|---|
| TransferSettings.Set | src/main/java/org/syncany/plugins/samba/SambaTransferSettings.java:44-82 | a setter's value reads back through the matching getter and every other field keeps its value |
| TransferSettings.OptionSpecsDescribeFields | src/main/java/org/syncany/plugins/samba/SambaTransferSettings.java:96-102 | the five option specifications cover exactly the five fields, one each and in order; hostname, username, password and share are mandatory, path is optional with default "/", and only the password is sensitive |
| TransferSettings.Init | src/main/java/org/syncany/plugins/samba/SambaTransferSettings.java:85-92 | validation runs before any assignment: a rejected map fails with a storage error and leaves the settings as they were; an accepted one sets every field to the value under its key, or null when the key is absent |
| TransferSettings.InitSetsMandatory | src/main/java/org/syncany/plugins/samba/SambaTransferSettings.java:85-101 | when validation admits only maps that hold every mandatory key, a successful init leaves hostname, username, password and share non-null |
| TransferSettings.ToStringHidesPassword | src/main/java/org/syncany/plugins/samba/SambaTransferSettings.java:106-114 | the rendering never depends on the password's text, only on whether it is null |
| TransferSettings.ToStringLayout | src/main/java/org/syncany/plugins/samba/SambaTransferSettings.java:106-114 | the rendering lists the fields in order: the class name with the verbatim hostname, then share, path and username each verbatim after its label, then the masked password and the closing brace |
| Addresses.NewSession | src/main/java/org/syncany/plugins/samba/SambaTransferManager.java:86-94 | repoPath is "smb://" + hostname + "/" + share, with a null field rendered as "null"; the path is kept from the settings |
| RemoteFiles.FolderOf | src/main/java/org/syncany/plugins/samba/SambaTransferManager.java:382-401 | the router gives the empty folder exactly for classes outside the five categories |
| RemoteFiles.FolderRoundTrip | src/main/java/org/syncany/plugins/samba/SambaTransferManager.java:382-401 | each of the five categories is routed to its own folder, which reads back as that category; every other class is routed to no folder |
| RemoteFiles.FolderInjective | src/main/java/org/syncany/plugins/samba/SambaTransferManager.java:90-94 | distinct categories never share a folder |
| Addresses.CreateSmbFile | src/main/java/org/syncany/plugins/samba/SambaTransferManager.java:370-380 | an address is refused, with an unchecked illegal-argument error, exactly when its text holds a character of `Uri.IllegalChar`, the model's approximation of what URI.create refuses in such an address; a file's address is normalised, the root's is taken verbatim as repoPath + "/" + path |
| Addresses.RootAddress | src/main/java/org/syncany/plugins/samba/SambaTransferManager.java:378 | the root's address resolves exactly when its text is legal, and then lands on the root location |
| Addresses.FileAddress | src/main/java/org/syncany/plugins/samba/SambaTransferManager.java:372-375 | a file's address resolves exactly when its text is legal, and then lands on the file's location |
| Addresses.LocateNormalize | src/main/java/org/syncany/plugins/samba/SambaTransferManager.java:372-375 | normalising an address does not change the place on the share it names |
| Addresses.FileKeyInFolder | src/main/java/org/syncany/plugins/samba/SambaTransferManager.java:372-375 | a file's location is its name resolved below the root and its class's folder; a plain name is one segment more |
| Addresses.FolderKeyShape | src/main/java/org/syncany/plugins/samba/SambaTransferManager.java:382-401 | a category's folder is one segment below the root; the folder of any other class is the root itself |
| Addresses.FileRestSyntax | src/main/java/org/syncany/plugins/samba/SambaTransferManager.java:372-375 | a file's address text is legal exactly when the root's text and the file name are |
| Addresses.FolderIsParentOfFiles | src/main/java/org/syncany/plugins/samba/SambaTransferManager.java:132-136 | the folder init creates for a category is the parent of every plainly named file of that category, both as a location and as text (folder address + name = file address) |
| Addresses.TempKeyAtRoot | src/main/java/org/syncany/plugins/samba/SambaTransferManager.java:194 | the temporary upload target sits directly under the root whatever the file's class, so for a category file it differs from the file's own place |
| Addresses.UnroutedKey | src/main/java/org/syncany/plugins/samba/SambaTransferManager.java:398-400 | a plainly named file of a class outside the categories sits directly under the root |
| Addresses.MarkerKeyAtRoot | src/main/java/org/syncany/plugins/samba/SambaTransferManager.java:353 | the repository marker sits directly under the root |
| Addresses.DotDotEscapesFolder | src/main/java/org/syncany/plugins/samba/SambaTransferManager.java:372-375 | a multichunk named "../" + name is not rejected: normalisation lifts it out of its folder to the root |
| Transfers.Connect | src/main/java/org/syncany/plugins/samba/SambaTransferManager.java:108-116 | connect changes nothing and fails, with a storage error, exactly when its existence check fails; the answer itself is ignored |
| Transfers.Disconnect | src/main/java/org/syncany/plugins/samba/SambaTransferManager.java:119-121 | disconnect does nothing |
| Transfers.MakeDirs | src/main/java/org/syncany/plugins/samba/SambaTransferManager.java:132-136 | a failure is a storage error or a refused folder address; on success every folder was new and is now a directory, and the first one's parent was a directory; only directories are ever added and no mkdirs is issued |
| Transfers.MakeDirsStops | src/main/java/org/syncany/plugins/samba/SambaTransferManager.java:132-139 | a failed run stopped at its first refused address or failing mkdir: every address before it resolved and got its mkdir, in order, the failing one got its mkdir only if it resolved, and nothing after it was tried |
| Transfers.MakeDirsSucceeds | src/main/java/org/syncany/plugins/samba/SambaTransferManager.java:132-136 | on a working share, distinct resolved folders that do not exist yet, all directly below one directory, are all made |
| Transfers.MakeDirsLog | src/main/java/org/syncany/plugins/samba/SambaTransferManager.java:132-136 | a successful run logs exactly one mkdir per folder, in order |
| Transfers.Setup | src/main/java/org/syncany/plugins/samba/SambaTransferManager.java:124-144 | init at resolved locations: a failing connect escapes as a storage error with the share unchanged; any other failure is a storage error or a refused folder address; on success every folder was new and is now a directory; only directories are ever added and the local disk is untouched |
| Transfers.SetupLog | src/main/java/org/syncany/plugins/samba/SambaTransferManager.java:124-136 | a successful init issues, in order: the existence check, the root probe (when the root address is legal), mkdirs of the root exactly when creation is asked for and the probe found no directory, then one mkdir per folder |
| Transfers.SetupMakesRoot | src/main/java/org/syncany/plugins/samba/SambaTransferManager.java:125-130 | once connect works, init asked to create issues mkdirs of the root whenever the root probe finds no directory, whatever happens after |
| Transfers.SetupSucceeds | src/main/java/org/syncany/plugins/samba/SambaTransferManager.java:124-144 | on a working share with the root a directory, init succeeds whatever createIfRequired says when its folders are distinct, new and directly below the root |
| Transfers.SetupTrace | src/main/java/org/syncany/plugins/samba/SambaTransferManager.java:128-129 | no mkdirs of the root is issued when creation is not asked for, or when the root probe finds a directory |
| Transfers.SetupEnds | src/main/java/org/syncany/plugins/samba/SambaTransferManager.java:132-136 | a successful init ends with the mkdir of each folder in order, and the first folder's parent is then a directory |
| Transfers.Init | src/main/java/org/syncany/plugins/samba/SambaTransferManager.java:124-144 | init never changes the local disk and only adds directories to the share; a failing connect makes init fail with the share unchanged |
| Transfers.InitFailure | src/main/java/org/syncany/plugins/samba/SambaTransferManager.java:124-144 | init fails only with a storage error, or with the unchecked illegal-argument error when the configured path does not make a legal address |
| Transfers.InitCreatesFolders | src/main/java/org/syncany/plugins/samba/SambaTransferManager.java:132-136 | after a successful init each of the five category folders exists as a directory and did not exist before |
| Transfers.InitTrace | src/main/java/org/syncany/plugins/samba/SambaTransferManager.java:128-136 | init issues no mkdirs of the root when creation is not asked for, or when the root probe finds a directory (a legal root address and a working `isDirectory` call); a successful init leaves the root a directory |
| Transfers.InitMakesFolders | src/main/java/org/syncany/plugins/samba/SambaTransferManager.java:132-136 | a successful init ends with mkdir of the five category folders in the order multichunks, databases, actions, transactions, temporary |
| Transfers.FolderAddressAt | src/main/java/org/syncany/plugins/samba/SambaTransferManager.java:132-136 | each category folder's address is refused exactly when the root's is, and otherwise lands on the category folder |
| Transfers.FolderParentIsRoot | src/main/java/org/syncany/plugins/samba/SambaTransferManager.java:90-94 | each category folder's parent is the root |
| Transfers.InitSucceeds | src/main/java/org/syncany/plugins/samba/SambaTransferManager.java:124-144 | on a working share init succeeds, whatever createIfRequired says, when the root address is legal, the root is a directory and none of the five category folders exists yet |
| Transfers.InitTwiceFails | src/main/java/org/syncany/plugins/samba/SambaTransferManager.java:132-136 | init is not idempotent: after a successful init a second one fails on a working share, since mkdir of an existing folder fails |
| Transfers.Fetch | src/main/java/org/syncany/plugins/samba/SambaTransferManager.java:152-186 | download at a resolved location: on success the local destination holds the remote bytes and nothing else on the local disk changes; a failed remote read is a file-not-found error that leaves every local file except the temporary one untouched; the share is never changed |
| Transfers.Download | src/main/java/org/syncany/plugins/samba/SambaTransferManager.java:147-187 | a name of "." is a no-op and any other name touches the backend; on success the destination holds the file's bytes; a read failure happens before the destination is deleted and leaves it in place; once the temporary file exists, a refused address escapes as an illegal-argument error and leaves the destination in place, and an illegal-argument error means the address was refused |
| Transfers.Put | src/main/java/org/syncany/plugins/samba/SambaTransferManager.java:190-218 | upload at resolved locations: read locally, write the temporary place, rename to the target; on success exactly the temporary place is gone and the target holds the local bytes, with exactly those three calls logged |
| Transfers.Upload | src/main/java/org/syncany/plugins/samba/SambaTransferManager.java:190-218 | the local disk never changes; a failed upload changes the share at most at the temporary place; a successful one leaves the share as before except that the temporary place is gone and the file holds the local bytes; once the local file is read, a refused address escapes as an illegal-argument error and leaves the share unchanged |
| Transfers.UploadSucceeds | src/main/java/org/syncany/plugins/samba/SambaTransferManager.java:190-218 | on a working share an upload succeeds when its address is legal, its name plain, its folder and the root are directories and its place is free |
| Transfers.UploadThenDownload | src/main/java/org/syncany/plugins/samba/SambaTransferManager.java:147-218 | what was uploaded downloads back byte for byte |
| Transfers.Remove | src/main/java/org/syncany/plugins/samba/SambaTransferManager.java:221-230 | delete at a resolved location answers true exactly when the entry existed and the call worked, and then removes just that entry; a failure changes nothing |
| Transfers.Delete | src/main/java/org/syncany/plugins/samba/SambaTransferManager.java:221-230 | delete answers true and removes just the file exactly when the address is legal, the file exists and the call works; otherwise the share is unchanged and the error is a storage error or the refused address |
| Transfers.Relocate | src/main/java/org/syncany/plugins/samba/SambaTransferManager.java:233-248 | move at resolved locations: a refused address becomes a storage error, a failing rename a move error; on success the entry changes place and nothing else changes; a failure changes nothing |
| Transfers.Move | src/main/java/org/syncany/plugins/samba/SambaTransferManager.java:233-248 | move succeeds exactly when both addresses are legal, the source exists, the target is free below a directory and the rename works; then only the source's entry changes place |
| Transfers.MoveBack | src/main/java/org/syncany/plugins/samba/SambaTransferManager.java:233-248 | on a tree-shaped share, moving a file back after a successful move restores the share |
| Transfers.MoveRelists | src/main/java/org/syncany/plugins/samba/SambaTransferManager.java:233-274 | after a successful move of a plainly named file its old name is gone from the source folder's listing and its new name is in the target folder's |
| Transfers.Collect | src/main/java/org/syncany/plugins/samba/SambaTransferManager.java:259-267 | the typed files built from a listing are keyed by exactly the accepted names, each holding the file of that name and class |
| Transfers.List | src/main/java/org/syncany/plugins/samba/SambaTransferManager.java:251-274 | list succeeds exactly when the root address is legal and the class's folder can be listed; its keys are exactly the accepted entry names, each mapped to the typed file of that name; the share and local disk are unchanged |
| Transfers.DeleteUnlists | src/main/java/org/syncany/plugins/samba/SambaTransferManager.java:221-274 | after a successful delete a plainly named file no longer appears in its folder's listing |
| Transfers.UploadLists | src/main/java/org/syncany/plugins/samba/SambaTransferManager.java:190-274 | after a successful upload a plainly named file appears in its folder's listing under its own name |
| Transfers.UploadIsolated | src/main/java/org/syncany/plugins/samba/SambaTransferManager.java:190-274 | an upload of a plainly named category file leaves every other category folder's listing unchanged |
| Probes.TargetExists | src/main/java/org/syncany/plugins/samba/SambaTransferManager.java:303-318 | never throws; answers true exactly when the root address is legal, the probe call works and the root is a directory; nothing changes |
| Probes.WriteProbe | src/main/java/org/syncany/plugins/samba/SambaTransferManager.java:277-300 | never throws; false whenever the root is not a directory; true only when the root is a directory and the test file was written and deleted, leaving the share otherwise as it was |
| Probes.TargetCanWrite | src/main/java/org/syncany/plugins/samba/SambaTransferManager.java:277-300 | never throws; false with the share unchanged unless the root is a directory; true only when the write test left the share as before minus the test file; changes nothing but the test file's place |
| Probes.TargetCanWriteSucceeds | src/main/java/org/syncany/plugins/samba/SambaTransferManager.java:277-290 | on a working share with a legal root address and a root directory the write test answers true |
| Probes.ParentPath | src/main/java/org/syncany/plugins/samba/SambaTransferManager.java:322-325 | the parent path is "/" when the path, without one trailing '/', has no '/' after its first character; otherwise it is what precedes the last '/' |
| Probes.ParentOfChild | src/main/java/org/syncany/plugins/samba/SambaTransferManager.java:322-325 | the parent of p + "/" + name, with or without a trailing '/', is p |
| Probes.TargetCanCreate | src/main/java/org/syncany/plugins/samba/SambaTransferManager.java:321-348 | never throws; false with the share unchanged unless the parent of the path is a directory; true only when the test folder was absent and the share ends as it began; whatever the answer, nothing on the share changes but the test folder's place |
| Probes.TargetCanCreateSucceeds | src/main/java/org/syncany/plugins/samba/SambaTransferManager.java:321-338 | on a working share with a legal parent address and a parent directory lacking the test folder, the probe answers true |
| Probes.FolderTestKeyUnderParent | src/main/java/org/syncany/plugins/samba/SambaTransferManager.java:329-332 | the test folder is one segment below the parent directory |
| Probes.RepoFileExists | src/main/java/org/syncany/plugins/samba/SambaTransferManager.java:350-368 | never throws; answers true exactly when the root address is legal, the probe call works and the marker at the root is a file; nothing changes |
| Paths.NormalizeIdempotent | src/main/java/org/syncany/plugins/samba/SambaTransferManager.java:372-375 | normalising an already normalised path changes nothing |
| Store.MkDirsAtGrows | src/main/java/org/syncany/plugins/samba/SambaTransferManager.java:129 | mkdirs only adds directories: its target becomes a directory and every existing entry survives unchanged |

## Left out

- The Samba protocol, authentication (`NtlmPasswordAuthentication`), and the exact semantics of the jcifs calls. The share is an abstract map, and the primitives in `Store` state the behaviour assumed of each call. jcifs is taken to resolve the normalised path exactly as `Addresses.Locate` does; in particular, leading `..` segments are kept above the root in the model, where jcifs cannot go above the share. A failing call is one named in the fault set; it throws and has no effect.
- Logging: it has no effect on the outcome.
- Byte streams and `IOUtils.copy`: a read or write moves the whole content at once. A partial write is not modelled.
- The host and share part of an address: the model addresses one share, and a location is the normalised path's segments. A '/' inside the host name moves the rest of the text into the path, and that is modelled.
- `URI.create` is approximated by a set of refused characters (`Uri.IllegalChar`): space and the other Unicode space characters, the punctuation it never admits, '[' and ']', the ASCII and ISO control characters, and '?' and '#'. `URI.create` itself accepts one '?' and one '#' as the start of a query and a fragment; the model refuses them instead (see `Addresses.CreateSmbFile` below). `MalformedURLException` from the `SmbFile` constructor cannot arise in the model.
- Addresses.CreateSmbFile: refuses exactly the texts holding a refused character, which differs from `URI.create` in four ways. A '?' or a '#' anywhere in the address is refused, though `URI.create` reads it as the start of a query or a fragment and builds an address whose path stops there; the source then acts on that shorter path, while the model reports an illegal argument. A stray '%' not followed by two hex digits is accepted, though `URI.create` refuses it. A malformed authority or port is not checked. A bracketed IPv6 host literal is refused, though `URI.create` accepts it.
- The local temporary file of `download` is created by the superclass, which is not part of this model. It is a parameter (`tempFile`). Writing the remote bytes into it never fails, and it is left behind when the read fails.
- `FileUtil.removeTrailingSlash` is not part of this model; it is taken to drop one trailing '/'.
- The remote-file name patterns that `RemoteFile.createRemoteFile` enforces are not part of this model. `list` takes them as a parameter `accepts`, and `SambaRemoteFile` construction is taken to succeed for every name.
- `PluginOptionSpecs.validate` is not part of this model; `TransferSettings.Init` takes it as a parameter.
- Probes.TargetCanCreate: requires a non-null path. The source throws a `NullPointerException` outside its `try` when the path is null, and that call is not modelled.
- Transfers.Fetch: requires a refused address to be refused as an illegal argument, which is the only way `createSmbFile` refuses one.
- Transfers.Setup: the root `mkdirs` is issued at the root location, where the source normalises the root's address through jcifs.
- Concurrency: races between writers, for example two uploads of the same name sharing one temporary file, and any atomicity the share itself offers.
- Recursive delete and rename of non-empty folders: `delete` and `move` act on one entry. A moved or deleted directory does not carry its subtree.

=== FILE: addresses.dfy ===
/**
 Address resolution of the transfer manager: the session fields the constructor
 fixes, `createSmbFile`, and where on the share each address lands.
 */
module Addresses {
  import opened Results
  import opened Paths
  import opened Uri
  import opened RemoteFiles
  import opened Store
  import TransferSettings

  /**
   What the manager keeps: host and share as the constructor rendered them into
   `repoPath`, and the settings' path. The source reads the path from the
   settings on every call; the model fixes it when the session is built, so a
   later change of the settings' path is not seen.
   */
  datatype Session = Session(hostname: string, share: string, path: Option<string>)

  /** The constructor: `repoPath` is "smb://" + hostname + "/" + share, with null rendered as "null". */
  function NewSession(s: TransferSettings.Settings): (sess: Session)
    ensures RepoPath(sess) == "smb://" + Text(s.hostname) + "/" + Text(s.share)
    ensures sess.path == s.path
  {
    Session(Text(s.hostname), Text(s.share), s.path)
  }

  /** `repoPath` without its "smb://" prefix. */
  function RepoRest(sess: Session): string {
    sess.hostname + "/" + sess.share
  }

  function RepoPath(sess: Session): string {
    "smb://" + RepoRest(sess)
  }

  /** repoPath + "/" + path, without the "smb://" prefix. */
  function RootRest(sess: Session): string {
    RepoRest(sess) + "/" + Text(sess.path)
  }

  /** repoPath + "/" + path + "/" + folder + "/" + name, without the "smb://" prefix. */
  function FileRest(sess: Session, f: RemoteFile): string {
    RootRest(sess) + "/" + FolderOf(f.cls) + "/" + f.name
  }

  /** The untyped remote file the manager builds from a bare name (`SambaRemoteFile`), routed to the root. */
  function Untyped(name: string): RemoteFile {
    RemoteFile(Samba, name)
  }

  /** The directory `init` creates for a class: an untyped file named after the class's folder. */
  function FolderDir(c: FileClass): RemoteFile {
    Untyped(FolderOf(c))
  }

  /** The temporary file `upload` writes first. */
  function TempFor(f: RemoteFile): RemoteFile {
    Untyped("/temp-" + f.name)
  }

  /**
   `createSmbFile`: a file's address is normalised; the repository root's address
   (no file) is taken verbatim. Either is rejected when its text holds an `IllegalChar`.
   */
  function CreateSmbFile(sess: Session, f: Option<RemoteFile>): (r: Result<Url>)
    ensures r.Err? ==> r.failure == IllegalArgument
    ensures f.None? ==> (r.Ok? <==> SyntaxOk(RootRest(sess)))
    ensures f.None? && r.Ok? ==> ToString(r.value) == RepoPath(sess) + "/" + Text(sess.path)
    ensures f.Some? ==> (r.Ok? <==> SyntaxOk(FileRest(sess, f.value)))
    ensures f.Some? && r.Ok? ==>
      r.value.authority == FileUrl(sess, f.value).authority
      && r.value.path == NormalizePath(FileUrl(sess, f.value).path)
  {
    match f
    case None => Create(RootRest(sess))
    case Some(file) =>
      match Create(FileRest(sess, file))
      case Err(e) => Err(e)
      case Ok(u) => Ok(Normalize(FileUrl(sess, file)))
  }

  /** Where `createSmbFile` lands for the repository root: its location, or the refusal of its address. */
  function RootAddress(sess: Session): (r: Result<Key>)
    ensures r.Ok? <==> SyntaxOk(RootRest(sess))
    ensures r.Err? ==> r.failure == IllegalArgument
    ensures r.Ok? ==> r.value == RootKey(sess)
  {
    match CreateSmbFile(sess, None)
    case Err(e) => Err(e)
    case Ok(u) =>
      CreateSmbFileLocates(sess, None);
      Ok(Locate(u))
  }

  /** Where `createSmbFile` lands for a file: its location, or the refusal of its address. */
  function FileAddress(sess: Session, f: RemoteFile): (r: Result<Key>)
    ensures r.Ok? <==> SyntaxOk(FileRest(sess, f))
    ensures r.Err? ==> r.failure == IllegalArgument
    ensures r.Ok? ==> r.value == FileKey(sess, f)
  {
    match CreateSmbFile(sess, Some(f))
    case Err(e) => Err(e)
    case Ok(u) =>
      CreateSmbFileLocates(sess, Some(f));
      Ok(Locate(u))
  }

  /** Where the Samba client finds an address on the share: its path, normalised, as segments. */
  function Locate(u: Url): Key {
    Resolve([], Split(u.path))
  }

  /** The host name's part of the path: empty, unless the host name holds a '/'. */
  function HostTail(sess: Session): string {
    sess.hostname[SegmentLength(sess.hostname)..]
  }

  /** repoPath + "/" + path, split by `URI.create` into authority and path. */
  function RootUrl(sess: Session): (u: Url)
    ensures u.authority + u.path == RootRest(sess)
    ensures u.path == HostTail(sess) + "/" + sess.share + "/" + Text(sess.path)
  {
    RootUrlShape(sess);
    SplitAuthority(RootRest(sess))
  }

  /** A file's address before normalisation, split into authority and path. */
  function FileUrl(sess: Session, f: RemoteFile): (u: Url)
    ensures u.authority == RootUrl(sess).authority
    ensures u.path == RootUrl(sess).path + "/" + FolderOf(f.cls) + "/" + f.name
    ensures |u.path| > 0 && u.path[0] == '/'
  {
    FileUrlShape(sess, f);
    SplitAuthority(FileRest(sess, f))
  }

  lemma SlashJoin(r: string, a: string, b: string)
    ensures r + "/" + a + "/" + b == r + ("/" + a + "/" + b)
  {
  }

  lemma FileUrlShape(sess: Session, f: RemoteFile)
    ensures SplitAuthority(FileRest(sess, f))
         == Url(RootUrl(sess).authority, RootUrl(sess).path + "/" + FolderOf(f.cls) + "/" + f.name)
  {
    var folder := FolderOf(f.cls);
    var tail := "/" + folder + "/" + f.name;
    SlashJoin(RootRest(sess), folder, f.name);
    RootUrlShape(sess);
    SplitAuthorityExtend(RootRest(sess), tail);
    SlashJoin(RootUrl(sess).path, folder, f.name);
  }

  lemma RootUrlShape(sess: Session)
    ensures SegmentLength(RootRest(sess)) < |RootRest(sess)|
    ensures SplitAuthority(RootRest(sess)).path == HostTail(sess) + "/" + sess.share + "/" + Text(sess.path)
  {
    var h := sess.hostname;
    var head := h + "/" + sess.share;
    SplitAuthorityAppend(h, sess.share);
    SegmentLengthAppend(h, sess.share);
    SplitAuthorityExtend(head, "/" + Text(sess.path));
    assert head + ("/" + Text(sess.path)) == RootRest(sess);
  }

  /** The location of `repoPath` itself (what `connect` probes). */
  function RepoKey(sess: Session): Key {
    Locate(SplitAuthority(RepoRest(sess)))
  }

  /** The location of the repository root. */
  function RootKey(sess: Session): Key {
    Locate(RootUrl(sess))
  }

  /** The location of a remote file. */
  function FileKey(sess: Session, f: RemoteFile): Key {
    Locate(FileUrl(sess, f))
  }

  /** The location of the folder a class is listed from and created as. */
  function FolderKey(sess: Session, c: FileClass): Key {
    FileKey(sess, FolderDir(c))
  }

  // ---------------------------------------------------------------------------

  /** Normalising an address does not move it. */
  lemma LocateNormalize(u: Url)
    requires u.path == [] || u.path[0] == '/'
    ensures Locate(Normalize(u)) == Locate(u)
  {
    if |u.path| > 0 {
      NormalizeSegments(u.path);
      var kept := Resolve([], Split(u.path));
      ResolveResolved([], Split(u.path));
      ResolveIdentity([], kept);
    }
  }

  /** The segments of a file's path: the root's, then the folder's, then the name's. */
  lemma FilePathSegments(sess: Session, f: RemoteFile)
    ensures Split(FileUrl(sess, f).path)
         == Split(RootUrl(sess).path) + Split(FolderOf(f.cls)) + Split(f.name)
  {
    var root := RootUrl(sess).path;
    SplitAppend(root + "/" + FolderOf(f.cls), f.name);
    SplitAppend(root, FolderOf(f.cls));
  }

  /** `createSmbFile` lands on `RootKey` for no file and on `FileKey` for a file. */
  lemma CreateSmbFileLocates(sess: Session, f: Option<RemoteFile>)
    requires CreateSmbFile(sess, f).Ok?
    ensures f.None? ==> Locate(CreateSmbFile(sess, f).value) == RootKey(sess)
    ensures f.Some? ==> Locate(CreateSmbFile(sess, f).value) == FileKey(sess, f.value)
  {
    if f.Some? {
      LocateNormalize(FileUrl(sess, f.value));
    } else {
      assert CreateSmbFile(sess, f).value == SplitAuthority(RootRest(sess));
    }
  }

  /**
   A file lives in its class's folder under the root: the name's segments are
   resolved after the root's and the folder's. A plain name is one more segment.
   */
  lemma FileKeyInFolder(sess: Session, f: RemoteFile)
    ensures FileKey(sess, f) == Resolve(RootKey(sess) + Split(FolderOf(f.cls)), Split(f.name))
    ensures IsPlain(f.name) ==> FileKey(sess, f) == RootKey(sess) + Split(FolderOf(f.cls)) + [f.name]
  {
    var root := Split(RootUrl(sess).path);
    var folder := Split(FolderOf(f.cls));
    FilePathSegments(sess, f);
    FolderSegments(f.cls);
    ResolveAppend([], root + folder, Split(f.name));
    ResolveAppend([], root, folder);
    ResolvePlain(Resolve([], root), folder);
    if IsPlain(f.name) {
      SplitSegment(f.name);
      ResolvePlain(RootKey(sess) + folder, [f.name]);
    }
  }

  /** The folder of a category is one segment below the root; any other class's folder is the root. */
  lemma FolderKeyShape(sess: Session, c: FileClass)
    ensures IsCategory(c) ==> FolderKey(sess, c) == RootKey(sess) + [DirName(c)]
    ensures !IsCategory(c) ==> FolderKey(sess, c) == RootKey(sess)
  {
    FileKeyInFolder(sess, FolderDir(c));
    FolderSegments(Samba);
    FolderSegments(c);
    assert RootKey(sess) + [] == RootKey(sess);
    if IsCategory(c) {
      ResolvePlain(RootKey(sess), [DirName(c)]);
    }
  }

  predicate Lower(s: string) {
    forall i :: 0 <= i < |s| ==> 'a' <= s[i] <= 'z'
  }

  lemma DirNameLower(c: FileClass)
    requires IsCategory(c)
    ensures Lower(DirName(c))
  {
    match c
    case Multichunk =>
    case Database =>
    case Action =>
    case Transaction =>
    case Temp =>
  }

  lemma LowerSyntaxOk(s: string)
    requires Lower(s)
    ensures SyntaxOk(s)
  {
  }

  /** Every folder the router produces is made of legal characters. */
  lemma FolderOfSyntaxOk(c: FileClass)
    ensures SyntaxOk(FolderOf(c))
  {
    if IsCategory(c) {
      var d := DirName(c);
      DirNameLower(c);
      LowerSyntaxOk(d);
      assert SyntaxOk("/");
      SyntaxOkAppend("/", d);
      SyntaxOkAppend("/" + d, "/");
    }
  }

  /** A file's address is legal exactly when the root's address and the file's name are. */
  lemma FileRestSyntax(sess: Session, f: RemoteFile)
    ensures SyntaxOk(FileRest(sess, f)) <==> SyntaxOk(RootRest(sess)) && SyntaxOk(f.name)
  {
    var folder := FolderOf(f.cls);
    SlashJoin(RootRest(sess), folder, f.name);
    FolderOfSyntaxOk(f.cls);
    assert SyntaxOk("/");
    SyntaxOkAppend("/", folder);
    SyntaxOkAppend("/" + folder, "/");
    SyntaxOkAppend("/" + folder + "/", f.name);
    SyntaxOkAppend(RootRest(sess), "/" + folder + "/" + f.name);
  }

  /** `upload`'s temporary address is legal exactly when the file's own address is. */
  lemma TempRestSyntax(sess: Session, f: RemoteFile)
    ensures SyntaxOk(FileRest(sess, TempFor(f))) <==> SyntaxOk(FileRest(sess, f))
  {
    FileRestSyntax(sess, f);
    FileRestSyntax(sess, TempFor(f));
    assert SyntaxOk("/temp-") by {
      assert forall i :: 0 <= i < |"/temp-"| ==> "/temp-"[i] in {'/', 't', 'e', 'm', 'p', '-'};
    }
    SyntaxOkAppend("/temp-", f.name);
  }

  lemma FolderSyntaxOk(c: FileClass)
    ensures SyntaxOk("/" + "" + "/" + FolderOf(c))
  {
    FolderOfSyntaxOk(c);
    assert SyntaxOk("//");
    assert "/" + "" + "/" + FolderOf(c) == "//" + FolderOf(c);
    SyntaxOkAppend("//", FolderOf(c));
  }

  /** The address of a class's folder is legal exactly when the root's is. */
  lemma FolderDirSyntax(sess: Session, c: FileClass)
    ensures SyntaxOk(FileRest(sess, FolderDir(c))) <==> SyntaxOk(RootRest(sess))
  {
    FileRestSyntax(sess, FolderDir(c));
    FolderOfSyntaxOk(c);
  }

  /** A plainly named file of any class is one segment below its class's folder. */
  lemma FileKeyUnderFolder(sess: Session, f: RemoteFile)
    requires IsPlain(f.name)
    ensures FileKey(sess, f) == FolderKey(sess, f.cls) + [f.name]
  {
    FolderKeyShape(sess, f.cls);
    if IsCategory(f.cls) {
      FileKeyInFolder(sess, f);
      FolderSegments(f.cls);
    } else {
      UnroutedKey(sess, f);
    }
  }

  lemma LastChar(a: string, b: string)
    requires |b| > 0
    ensures (a + b)[|a + b| - 1] == b[|b| - 1]
  {
  }

  /** The folder `init` creates for a category resolves, with a trailing '/', whenever the root does. */
  lemma FolderDirAddress(sess: Session, c: FileClass)
    requires IsCategory(c) && SyntaxOk(RootRest(sess))
    ensures CreateSmbFile(sess, Some(FolderDir(c)))
         == Ok(Url(RootUrl(sess).authority, JoinAbs(FolderKey(sess, c)) + "/"))
  {
    var d := FolderDir(c);
    var tail := "/" + "" + "/" + FolderOf(c);
    SlashJoin(RootRest(sess), "", FolderOf(c));
    FolderSyntaxOk(c);
    SyntaxOkAppend(RootRest(sess), tail);
    assert SyntaxOk(FileRest(sess, d));
    var u := FileUrl(sess, d);
    FolderKeyShape(sess, c);
    assert EndsWithSlash(u.path) by {
      LastChar(RootUrl(sess).path + "/" + "" + "/", FolderOf(c));
    }
    NormalizeDirectory(u.path);
  }

  /** A file with a plain name resolves to its location's segments, with no trailing '/'. */
  lemma PlainFileAddress(sess: Session, f: RemoteFile)
    requires IsPlain(f.name) && SyntaxOk(FileRest(sess, f))
    ensures SyntaxOk(RootRest(sess))
    ensures CreateSmbFile(sess, Some(f))
         == Ok(Url(RootUrl(sess).authority, JoinAbs(FileKey(sess, f))))
  {
    var tail := "/" + FolderOf(f.cls) + "/" + f.name;
    SlashJoin(RootRest(sess), FolderOf(f.cls), f.name);
    SyntaxOkAppend(RootRest(sess), tail);
    var u := FileUrl(sess, f);
    var segs := Split(u.path);
    assert !EndsWithSlash(u.path) by {
      LastChar(RootUrl(sess).path + "/" + FolderOf(f.cls) + "/", f.name);
      assert f.name[|f.name| - 1] in f.name;
    }
    assert !LastRemoved(segs) by {
      FilePathSegments(sess, f);
      SplitSegment(f.name);
      var init := segs[..|segs| - 1];
      assert segs == init + [f.name];
    }
    FileKeyInFolder(sess, f);
    NormalizeFile(u.path);
  }

  /**
   The directory `init` creates for a category is the parent of every file of that
   category with a plain name, both as a location and as a string: the file's
   address is the folder's normalised address followed by the name.
   */
  lemma FolderIsParentOfFiles(sess: Session, c: FileClass, name: string)
    requires IsCategory(c) && IsPlain(name)
    ensures FileKey(sess, RemoteFile(c, name)) == FolderKey(sess, c) + [name]
    ensures CreateSmbFile(sess, Some(RemoteFile(c, name))).Ok? ==>
      && CreateSmbFile(sess, Some(FolderDir(c))).Ok?
      && ToString(CreateSmbFile(sess, Some(FolderDir(c))).value) + name
         == ToString(CreateSmbFile(sess, Some(RemoteFile(c, name))).value)
  {
    var f := RemoteFile(c, name);
    FileKeyInFolder(sess, f);
    FolderKeyShape(sess, c);
    FolderSegments(c);
    if CreateSmbFile(sess, Some(f)).Ok? {
      PlainFileAddress(sess, f);
      FolderDirAddress(sess, c);
      var kept := FolderKey(sess, c);
      var auth := RootUrl(sess).authority;
      JoinAbsSnoc(kept, name);
      Assoc("smb://" + auth, JoinAbs(kept) + "/", name);
      Assoc("smb://" + auth, JoinAbs(kept), "/");
      Assoc("smb://" + auth + JoinAbs(kept), "/", name);
      assert ToString(CreateSmbFile(sess, Some(f)).value) == "smb://" + auth + JoinAbs(kept + [name]);
      assert ToString(CreateSmbFile(sess, Some(FolderDir(c))).value) == "smb://" + auth + (JoinAbs(kept) + "/");
    }
  }

  /** `upload`'s temporary file sits directly under the repository root, whatever the file's class. */
  lemma TempKeyAtRoot(sess: Session, f: RemoteFile)
    requires IsPlain(f.name)
    ensures FileKey(sess, TempFor(f)) == RootKey(sess) + ["temp-" + f.name]
    ensures IsCategory(f.cls) ==> FileKey(sess, TempFor(f)) != FileKey(sess, f)
  {
    var t := "temp-" + f.name;
    assert IsPlain(t) by {
      assert '/' !in "temp-";
      assert |t| > 2;
    }
    assert "/temp-" + f.name == "" + "/" + t;
    SplitAppend("", t);
    SplitSegment(t);
    FileKeyInFolder(sess, TempFor(f));
    FolderSegments(Samba);
    assert RootKey(sess) + [] == RootKey(sess);
    ResolvePlain(RootKey(sess), [t]);
    if IsCategory(f.cls) {
      FileKeyInFolder(sess, f);
      FolderSegments(f.cls);
      assert |FileKey(sess, f)| == |RootKey(sess)| + 2;
    }
  }

  /** A plainly named file of a class outside the categories sits directly under the repository root. */
  lemma UnroutedKey(sess: Session, f: RemoteFile)
    requires !IsCategory(f.cls) && IsPlain(f.name)
    ensures FileKey(sess, f) == RootKey(sess) + [f.name]
  {
    FileKeyInFolder(sess, f);
    FolderSegments(f.cls);
    assert RootKey(sess) + [] == RootKey(sess);
  }

  /** The repository marker sits directly under the repository root. */
  lemma MarkerKeyAtRoot(sess: Session)
    ensures FileKey(sess, RemoteFile(Syncany, MarkerName)) == RootKey(sess) + [MarkerName]
  {
    assert IsPlain(MarkerName) by {
      assert MarkerName == "syncany";
    }
    UnroutedKey(sess, RemoteFile(Syncany, MarkerName));
  }

  /** Appending "//" and a name of legal characters to a legal root keeps the address legal. */
  lemma UnroutedSyntaxOk(sess: Session, f: RemoteFile)
    requires !IsCategory(f.cls) && SyntaxOk(f.name)
    ensures SyntaxOk(FileRest(sess, f)) <==> SyntaxOk(RootRest(sess))
  {
    var tail := "/" + FolderOf(f.cls) + "/" + f.name;
    SlashJoin(RootRest(sess), FolderOf(f.cls), f.name);
    assert tail == "//" + f.name;
    assert SyntaxOk("//");
    SyntaxOkAppend("//", f.name);
    SyntaxOkAppend(RootRest(sess), tail);
  }

  /** A name starting with ".." is not rejected: it climbs out of its category folder to the root. */
  lemma DotDotEscapesFolder(sess: Session, name: string)
    requires IsPlain(name)
    ensures FileKey(sess, RemoteFile(Multichunk, "../" + name)) == RootKey(sess) + [name]
  {
    var f := RemoteFile(Multichunk, "../" + name);
    FileKeyInFolder(sess, f);
    FolderSegments(Multichunk);
    SplitClimb(name);
    ResolveClimb(RootKey(sess), "multichunks", name);
  }

  /** "../" + name splits into a ".." segment and the name. */
  lemma SplitClimb(name: string)
    requires IsPlain(name)
    ensures Split("../" + name) == ["..", name]
  {
    assert "../" + name == ".." + "/" + name;
    SplitAppend("..", name);
    SplitSegment("..");
    SplitSegment(name);
  }

  /** A ".." drops the folder segment before it. */
  lemma ResolveClimb(root: seq<string>, dir: string, name: string)
    requires dir != ".." && IsPlain(name)
    ensures Resolve(root + [dir], ["..", name]) == root + [name]
  {
    var kept := root + [dir];
    assert Step(kept, "..") == root by {
      assert kept[..|kept| - 1] == root;
    }
    assert ["..", name][1..] == [name];
    ResolvePlain(root, [name]);
  }
}

=== FILE: paths.dfy ===
/**
 Hierarchical paths as sequences of segments, and the path normalisation that
 `java.net.URI.normalize` performs on an absolute path: repeated '/' collapse,
 "." segments disappear, and a ".." cancels the nearest preceding segment that is
 not itself ".." (section 5.2, step 6 c-f of RFC 2396). A ".." with nothing left
 to cancel is kept.
 */
module Paths {

  /** A segment: a non-empty run of characters without '/'. */
  predicate IsSegment(s: string) {
    |s| > 0 && '/' !in s
  }

  /** A segment that dot-segment removal never touches. */
  predicate IsPlain(s: string) {
    IsSegment(s) && s != "." && s != ".."
  }

  predicate AllSegments(segs: seq<string>) {
    forall i :: 0 <= i < |segs| ==> IsSegment(segs[i])
  }

  predicate AllPlain(segs: seq<string>) {
    forall i :: 0 <= i < |segs| ==> IsPlain(segs[i])
  }

  /** The result of dot-segment removal: no ".", and a ".." only in a leading run of "..". */
  predicate Resolved(segs: seq<string>) {
    && AllSegments(segs)
    && (forall i :: 0 <= i < |segs| ==> segs[i] != ".")
    && (forall i, j :: 0 <= i < j < |segs| && segs[j] == ".." ==> segs[i] == "..")
  }

  predicate EndsWithSlash(p: string) {
    |p| > 0 && p[|p| - 1] == '/'
  }

  /** Length of the run of non-'/' characters at the head of `p`. */
  function SegmentLength(p: string): (n: nat)
    ensures n <= |p|
    ensures forall i :: 0 <= i < n ==> p[i] != '/'
    ensures n < |p| ==> p[n] == '/'
  {
    if |p| == 0 || p[0] == '/' then 0 else 1 + SegmentLength(p[1..])
  }

  /** The segments of `p`: its maximal runs of non-'/' characters, in order. */
  function Split(p: string): (segs: seq<string>)
    ensures AllSegments(segs)
    decreases |p|
  {
    if |p| == 0 then []
    else if p[0] == '/' then Split(p[1..])
    else
      var n := SegmentLength(p);
      [p[..n]] + Split(p[n..])
  }

  /** "/s1/s2/.../sn"; the empty sequence joins to "". */
  function JoinAbs(segs: seq<string>): string {
    if |segs| == 0 then "" else JoinAbs(segs[..|segs| - 1]) + "/" + segs[|segs| - 1]
  }

  /** One step of dot-segment removal over the stack of segments kept so far. */
  function Step(kept: seq<string>, s: string): seq<string> {
    if s == "." then kept
    else if s == ".." && |kept| > 0 && kept[|kept| - 1] != ".." then kept[..|kept| - 1]
    else kept + [s]
  }

  /** Dot-segment removal of `segs`, continuing from the stack `kept`. */
  function Resolve(kept: seq<string>, segs: seq<string>): seq<string>
    decreases |segs|
  {
    if |segs| == 0 then kept else Resolve(Step(kept, segs[0]), segs[1..])
  }

  /** True when the last segment of `segs` does not survive dot-segment removal. */
  predicate LastRemoved(segs: seq<string>) {
    |segs| > 0 &&
    var before := Resolve([], segs[..|segs| - 1]);
    Step(before, segs[|segs| - 1]) != before + [segs[|segs| - 1]]
  }

  /**
   Normalisation of an absolute path. The last surviving segment keeps a
   trailing '/' when one followed it in `p`: when `p` ends in '/', or when the
   segment after it was removed.
   */
  function NormalizePath(p: string): (q: string)
    requires |p| > 0 && p[0] == '/'
    ensures |q| > 0 && q[0] == '/'
  {
    var kept := Resolve([], Split(p));
    if |kept| == 0 then "/"
    else
      JoinAbsStartsWithSlash(kept);
      JoinAbs(kept) + (if EndsWithSlash(p) || LastRemoved(Split(p)) then "/" else "")
  }

  /** A path ending in '/' normalises to its kept segments followed by '/'. */
  lemma NormalizeDirectory(p: string)
    requires |p| > 0 && p[0] == '/' && EndsWithSlash(p)
    requires |Resolve([], Split(p))| > 0
    ensures NormalizePath(p) == JoinAbs(Resolve([], Split(p))) + "/"
  {
  }

  /** A path whose last segment survives, without a trailing '/', normalises to its kept segments. */
  lemma NormalizeFile(p: string)
    requires |p| > 0 && p[0] == '/' && !EndsWithSlash(p) && !LastRemoved(Split(p))
    requires |Resolve([], Split(p))| > 0
    ensures NormalizePath(p) == JoinAbs(Resolve([], Split(p)))
  {
  }

  /** Appending a segment appends it after a '/'. */
  lemma JoinAbsSnoc(segs: seq<string>, s: string)
    ensures JoinAbs(segs + [s]) == JoinAbs(segs) + "/" + s
  {
    assert (segs + [s])[..|segs|] == segs;
  }

  lemma {:induction false} JoinAbsStartsWithSlash(segs: seq<string>)
    requires |segs| > 0
    ensures |JoinAbs(segs)| > 0 && JoinAbs(segs)[0] == '/'
  {
    if |segs| > 1 {
      JoinAbsStartsWithSlash(segs[..|segs| - 1]);
    }
  }

  // ---------------------------------------------------------------------------
  // Split

  lemma {:induction false} SegmentLengthAppend(a: string, b: string)
    ensures SegmentLength(a + "/" + b) == SegmentLength(a)
    decreases |a|
  {
    if |a| > 0 && a[0] != '/' {
      assert (a + "/" + b)[1..] == a[1..] + "/" + b;
      SegmentLengthAppend(a[1..], b);
    }
  }

  /** Appending never changes the head segment once a '/' has ended it. */
  lemma {:induction false} SegmentLengthExtend(a: string, b: string)
    requires SegmentLength(a) < |a|
    ensures SegmentLength(a + b) == SegmentLength(a)
    decreases |a|
  {
    if a[0] != '/' {
      assert (a + b)[1..] == a[1..] + b;
      SegmentLengthExtend(a[1..], b);
    }
  }

  /** A '/' is a segment boundary: splitting distributes over it. */
  lemma {:induction false} SplitAppend(a: string, b: string)
    ensures Split(a + "/" + b) == Split(a) + Split(b)
    decreases |a|
  {
    var p := a + "/" + b;
    if |a| == 0 {
      assert p[1..] == b;
    } else if a[0] == '/' {
      assert p[1..] == a[1..] + "/" + b;
      SplitAppend(a[1..], b);
    } else {
      var n := SegmentLength(a);
      SegmentLengthAppend(a, b);
      assert p[..n] == a[..n];
      assert p[n..] == a[n..] + "/" + b;
      SplitAppend(a[n..], b);
    }
  }

  lemma SplitSegment(s: string)
    requires IsSegment(s)
    ensures Split(s) == [s]
  {
    assert s[0] in s;
    var n := SegmentLength(s);
    assert n == |s|;
    assert s[..|s|] == s;
    assert s[|s|..] == [];
    assert Split(s) == [s[..|s|]] + Split(s[|s|..]);
  }

  /** "/d/" has the single segment d. */
  lemma SplitDirectory(d: string)
    requires IsSegment(d)
    ensures Split("/" + d + "/") == [d]
  {
    assert "/" + d + "/" == "" + "/" + (d + "/");
    SplitAppend("", d + "/");
    assert d + "/" == d + "/" + "";
    SplitAppend(d, "");
    SplitSegment(d);
  }

  /** Joining segments and splitting again gives them back, with or without a trailing '/'. */
  lemma {:induction false} SplitJoinAbs(segs: seq<string>)
    requires AllSegments(segs)
    ensures Split(JoinAbs(segs)) == segs
    ensures Split(JoinAbs(segs) + "/") == segs
    decreases |segs|
  {
    if |segs| > 0 {
      var init := segs[..|segs| - 1];
      var last := segs[|segs| - 1];
      SplitJoinAbs(init);
      SplitAppend(JoinAbs(init), last);
      SplitSegment(last);
      assert init + [last] == segs;
      SplitAppend(JoinAbs(segs), "");
      assert JoinAbs(segs) + "/" + "" == JoinAbs(segs) + "/";
    } else {
      assert JoinAbs(segs) + "/" == "/" + "";
      SplitAppend("", "");
    }
  }

  lemma JoinAbsLastChar(segs: seq<string>)
    requires AllSegments(segs) && |segs| > 0
    ensures !EndsWithSlash(JoinAbs(segs))
  {
    var last := segs[|segs| - 1];
    var j := JoinAbs(segs);
    assert j == JoinAbs(segs[..|segs| - 1]) + "/" + last;
    assert j[|j| - 1] == last[|last| - 1];
    assert last[|last| - 1] in last;
  }

  // ---------------------------------------------------------------------------
  // Dot-segment removal

  /** Removal runs left to right, so it can be resumed from any intermediate stack. */
  lemma {:induction false} ResolveAppend(kept: seq<string>, a: seq<string>, b: seq<string>)
    ensures Resolve(kept, a + b) == Resolve(Resolve(kept, a), b)
    decreases |a|
  {
    if |a| > 0 {
      assert (a + b)[0] == a[0];
      assert (a + b)[1..] == a[1..] + b;
      ResolveAppend(Step(kept, a[0]), a[1..], b);
    } else {
      assert a + b == b;
    }
  }

  /** Plain segments are pushed unchanged. */
  lemma {:induction false} ResolvePlain(kept: seq<string>, segs: seq<string>)
    requires AllPlain(segs)
    ensures Resolve(kept, segs) == kept + segs
    decreases |segs|
  {
    if |segs| > 0 {
      ResolvePlain(kept + [segs[0]], segs[1..]);
      assert kept + [segs[0]] + segs[1..] == kept + segs;
    }
  }

  lemma StepResolved(kept: seq<string>, s: string)
    requires Resolved(kept) && IsSegment(s)
    ensures Resolved(Step(kept, s))
  {
    var r := Step(kept, s);
    if s == ".." && (|kept| == 0 || kept[|kept| - 1] == "..") {
      forall i, j | 0 <= i < j < |r| && r[j] == ".."
        ensures r[i] == ".."
      {
        if j == |kept| && |kept| > 0 {
          assert kept[|kept| - 1] == "..";
        }
      }
    }
  }

  /** Whatever the input, the kept segments are in normal form. */
  lemma {:induction false} ResolveResolved(kept: seq<string>, segs: seq<string>)
    requires Resolved(kept) && AllSegments(segs)
    ensures Resolved(Resolve(kept, segs))
    decreases |segs|
  {
    if |segs| > 0 {
      StepResolved(kept, segs[0]);
      ResolveResolved(Step(kept, segs[0]), segs[1..]);
    }
  }

  /** Segments already in normal form pass through removal unchanged. */
  lemma {:induction false} ResolveIdentity(kept: seq<string>, segs: seq<string>)
    requires Resolved(kept + segs)
    ensures Resolve(kept, segs) == kept + segs
    decreases |segs|
  {
    if |segs| > 0 {
      var all := kept + segs;
      assert all[|kept|] == segs[0];
      if segs[0] == ".." && |kept| > 0 {
        assert all[|kept| - 1] == "..";
      }
      assert Step(kept, segs[0]) == kept + [segs[0]];
      assert kept + [segs[0]] + segs[1..] == all;
      ResolveIdentity(kept + [segs[0]], segs[1..]);
    }
  }

  // ---------------------------------------------------------------------------
  // Normalisation

  /** The segments of the normalised path are the input's segments after dot-segment removal. */
  lemma NormalizeSegments(p: string)
    requires |p| > 0 && p[0] == '/'
    ensures Split(NormalizePath(p)) == Resolve([], Split(p))
    ensures Resolved(Split(NormalizePath(p)))
  {
    var kept := Resolve([], Split(p));
    ResolveResolved([], Split(p));
    SplitJoinAbs(kept);
    var q := NormalizePath(p);
    if |kept| == 0 {
      assert q == JoinAbs(kept) + "/";
    } else {
      assert q == JoinAbs(kept) || q == JoinAbs(kept) + "/";
    }
  }

  /** Dropping the last segment keeps a normal form. */
  lemma ResolvedInit(kept: seq<string>)
    requires Resolved(kept) && |kept| > 0
    ensures Resolved(kept[..|kept| - 1])
  {
    var init := kept[..|kept| - 1];
    assert forall i :: 0 <= i < |init| ==> init[i] == kept[i];
  }

  /** Segments in normal form are a fixed point of removal, and their last one survives it. */
  lemma ResolvedFixed(kept: seq<string>)
    requires Resolved(kept)
    ensures Resolve([], kept) == kept
    ensures !LastRemoved(kept)
  {
    assert [] + kept == kept;
    ResolveIdentity([], kept);
    if |kept| > 0 {
      var init := kept[..|kept| - 1];
      var last := kept[|kept| - 1];
      ResolvedInit(kept);
      assert [] + init == init;
      ResolveIdentity([], init);
      assert last != ".";
      if last == ".." && |init| > 0 {
        assert init[|init| - 1] == kept[|init| - 1] == "..";
      }
      assert Step(init, last) == init + [last];
    }
  }

  /** Normalising twice is normalising once. */
  lemma NormalizeIdempotent(p: string)
    requires |p| > 0 && p[0] == '/'
    ensures NormalizePath(NormalizePath(p)) == NormalizePath(p)
  {
    var q := NormalizePath(p);
    var kept := Resolve([], Split(p));
    NormalizeSegments(p);
    assert Split(q) == kept;
    ResolvedFixed(kept);
    if |kept| > 0 {
      JoinAbsLastChar(kept);
      var j := JoinAbs(kept);
      if EndsWithSlash(p) || LastRemoved(Split(p)) {
        assert q == j + "/";
        assert EndsWithSlash(q);
      } else {
        assert q == j;
      }
    }
  }
}

=== FILE: probes.dfy ===
/**
 The four probes of the transfer manager. None of them throws: every failure,
 whether `URI.create` refusing an address or the share refusing a call, turns
 into the answer `false`.
 */
module Probes {
  import opened Results
  import opened Paths
  import opened Uri
  import opened RemoteFiles
  import opened Store
  import opened Addresses

  // ---------------------------------------------------------------------------
  // testTargetExists

  /** Asking whether a resolved location is a directory; a refused address or a failing call answers false. */
  function DirProbe(w: World, faults: set<Call>, at: Result<Key>): (r: Ret<bool>)
    ensures r.result.Ok?
    ensures r.result.value <==> at.Ok? && IsDirectory(at.value) !in faults && IsDirAt(w.remote, at.value)
    ensures r.world.remote == w.remote && r.world.local == w.local
    ensures r.world.trace == w.trace || (at.Ok? && r.world.trace == w.trace + [IsDirectory(at.value)])
  {
    match at
    case Err(_) => Ret(w, Ok(false))
    case Ok(k) =>
      var d := DoIsDirectory(w, faults, k);
      Ret(d.world, Ok(d.result.Ok? && d.result.value))
  }

  /** `testTargetExists`: whether the repository root is a directory. */
  function TargetExists(sess: Session, w: World, faults: set<Call>): (r: Ret<bool>)
    ensures r.result.Ok?
    ensures r.result.value <==>
      SyntaxOk(RootRest(sess)) && IsDirectory(RootKey(sess)) !in faults && IsDirAt(w.remote, RootKey(sess))
    ensures r.world.remote == w.remote && r.world.local == w.local
  {
    DirProbe(w, faults, RootAddress(sess))
  }

  // ---------------------------------------------------------------------------
  // testTargetCanWrite

  const WriteTestName := "syncany-write-test"

  /** The bytes of "test". */
  const WriteTestContent: seq<byte> := [116, 101, 115, 116]

  /** The untyped test file `testTargetCanWrite` writes at the root. */
  function WriteTestFile(): RemoteFile {
    Untyped(WriteTestName)
  }

  /**
   The write test at resolved locations: when `root` is a directory, write
   `test` and delete it again; true only when all of that succeeded.
   */
  function WriteProbe(w: World, faults: set<Call>, root: Result<Key>, test: Result<Key>): (r: Ret<bool>)
    ensures r.result.Ok?
    ensures !(root.Ok? && IsDirAt(w.remote, root.value)) ==> !r.result.value && r.world.remote == w.remote
    ensures r.result.value ==> root.Ok? && IsDirAt(w.remote, root.value) && test.Ok? && r.world.remote == w.remote - {test.value}
    ensures test.Ok? ==> AgreeExcept(w.remote, r.world.remote, {test.value})
    ensures test.Err? ==> r.world.remote == w.remote
    ensures r.world.local == w.local
  {
    var e := DirProbe(w, faults, root);
    if !e.result.value then Ret(e.world, Ok(false))
    else
      match test
      case Err(_) => Ret(e.world, Ok(false))
      case Ok(k) =>
        var wr := DoWrite(e.world, faults, k, WriteTestContent);
        if wr.result.Err? then Ret(wr.world, Ok(false))
        else
          var del := DoDelete(wr.world, faults, k);
          if del.result.Err? then Ret(del.world, Ok(false))
          else Ret(del.world, Ok(true))
  }

  /** On a working share the write test passes when the root is a directory holding no directory at the test location. */
  lemma WriteProbeSucceeds(w: World, root: Key, k: Key)
    requires IsDirAt(w.remote, root)
    requires |k| > 0 && Parent(k) == root && !IsDirAt(w.remote, k)
    ensures WriteProbe(w, {}, Ok(root), Ok(k)).result == Ok(true)
  {
    var e := DirProbe(w, {}, Ok(root));
    var wr := DoWrite(e.world, {}, k, WriteTestContent);
    assert wr.result.Ok?;
  }

  /**
   `testTargetCanWrite`: when the root is a directory, write the test file and
   delete it again; true only when all of that succeeded.
   */
  function TargetCanWrite(sess: Session, w: World, faults: set<Call>): (r: Ret<bool>)
    ensures r.result.Ok?
    ensures !IsDirAt(w.remote, RootKey(sess)) ==> !r.result.value && r.world.remote == w.remote
    ensures r.result.value ==>
      && IsDirAt(w.remote, RootKey(sess))
      && r.world.remote == w.remote - {FileKey(sess, WriteTestFile())}
    ensures AgreeExcept(w.remote, r.world.remote, {FileKey(sess, WriteTestFile())})
    ensures r.world.local == w.local
  {
    var root := RootAddress(sess);
    var test := FileAddress(sess, WriteTestFile());
    assert root.Ok? ==> root.value == RootKey(sess);
    assert test.Ok? ==> test.value == FileKey(sess, WriteTestFile());
    WriteProbe(w, faults, root, test)
  }

  /** With a working share, a legal root address and a root directory, the write test passes. */
  lemma TargetCanWriteSucceeds(sess: Session, w: World)
    requires SyntaxOk(RootRest(sess)) && IsDirAt(w.remote, RootKey(sess))
    requires !IsDirAt(w.remote, RootKey(sess) + [WriteTestName])
    ensures TargetCanWrite(sess, w, {}).result == Ok(true)
  {
    var f := WriteTestFile();
    WriteTestNameOk();
    UnroutedKey(sess, f);
    UnroutedSyntaxOk(sess, f);
    var k := FileKey(sess, f);
    assert Parent(k) == RootKey(sess);
    WriteProbeSucceeds(w, RootKey(sess), k);
  }

  /** The write test's name is a single legal segment. */
  lemma WriteTestNameOk()
    ensures IsPlain(WriteTestName) && SyntaxOk(WriteTestName)
  {
    assert WriteTestName[0] == 's' && WriteTestName[1] == 'y';
    assert '/' !in WriteTestName;
    LowerOrDashSyntaxOk(WriteTestName);
  }

  lemma LowerOrDashSyntaxOk(s: string)
    requires forall i :: 0 <= i < |s| ==> s[i] == '-' || 'a' <= s[i] <= 'z'
    ensures SyntaxOk(s)
  {
  }

  // ---------------------------------------------------------------------------
  // testTargetCanCreate

  /** `FileUtil.removeTrailingSlash`, taken to drop one trailing '/'. */
  function RemoveTrailingSlash(p: string): (q: string)
    ensures EndsWithSlash(p) ==> q + "/" == p
    ensures !EndsWithSlash(p) ==> q == p
  {
    if EndsWithSlash(p) then p[..|p| - 1] else p
  }

  /** `String.lastIndexOf`: the index of the last occurrence, or -1. */
  function LastIndexOf(s: string, c: char): (i: int)
    ensures -1 <= i < |s|
    ensures i >= 0 ==> s[i] == c
    ensures forall j :: i < j < |s| ==> s[j] != c
  {
    if |s| == 0 then -1
    else if s[|s| - 1] == c then |s| - 1
    else LastIndexOf(s[..|s| - 1], c)
  }

  /**
   The parent of the repository path: drop one trailing '/', then keep what
   precedes the last '/' when that '/' is not the first character; otherwise "/".
   */
  function ParentPath(path: string): (parent: string)
    ensures |parent| > 0
    ensures var s := RemoveTrailingSlash(path);
      (forall j :: 0 < j < |s| ==> s[j] != '/') ==> parent == "/"
    ensures var s := RemoveTrailingSlash(path);
      (exists j :: 0 < j < |s| && s[j] == '/') ==>
        && |parent| < |s|
        && parent == s[..|parent|]
        && s[|parent|] == '/'
        && (forall j :: |parent| < j < |s| ==> s[j] != '/')
  {
    var s := RemoveTrailingSlash(path);
    var i := LastIndexOf(s, '/');
    if i > 0 then s[..i] else "/"
  }

  /** The parent of a child path, with or without a trailing '/', is the path it was made from. */
  lemma ParentOfChild(p: string, name: string)
    requires |p| > 0 && IsSegment(name)
    ensures ParentPath(p + "/" + name) == p
    ensures ParentPath(p + "/" + name + "/") == p
  {
    var s := p + "/" + name;
    assert RemoveTrailingSlash(s + "/") == s;
    assert !EndsWithSlash(s) by {
      assert s[|s| - 1] == name[|name| - 1];
      assert name[|name| - 1] in name;
    }
    forall j | |p| < j < |s| ensures s[j] != '/' {
      assert s[j] == name[j - |p| - 1];
      assert name[j - |p| - 1] in name;
    }
    LastIndexOfUnique(s, '/', |p|);
    assert s[..|p|] == p;
  }

  /** An occurrence with none after it is the last one. */
  lemma LastIndexOfUnique(s: string, c: char, i: int)
    requires 0 <= i < |s| && s[i] == c
    requires forall j :: i < j < |s| ==> s[j] != c
    ensures LastIndexOf(s, c) == i
  {
  }

  /** repoPath + "/" + parentPath + "/", without the "smb://" prefix. */
  function ParentRest(sess: Session, path: string): string {
    RepoRest(sess) + "/" + ParentPath(path) + "/"
  }

  const FolderTestName := "syncany-folder-test"

  /** The location of the parent directory. */
  function ParentKey(sess: Session, path: string): Key {
    Locate(SplitAuthority(ParentRest(sess, path)))
  }

  /** The location of the test folder `testTargetCanCreate` makes and removes. */
  function FolderTestKey(sess: Session, path: string): Key {
    Locate(SplitAuthority(ParentRest(sess, path) + FolderTestName + "/"))
  }

  /** A directory's address, `URI.create` then `normalize`: its location, or the refusal of the address. */
  function DirAddress(rest: string): (r: Result<Key>)
    ensures r.Ok? <==> SyntaxOk(rest)
    ensures r.Err? ==> r.failure == IllegalArgument
    ensures r.Ok? ==> r.value == Locate(SplitAuthority(rest))
  {
    match Create(rest)
    case Err(e) => Err(e)
    case Ok(u) =>
      LocateNormalize(u);
      Ok(Locate(Normalize(u)))
  }

  /**
   The folder test at resolved locations: when `parent` is a directory, `mkdirs`
   the child `test` and delete it again; true only when all of that succeeded,
   and then the share is as it was.
   */
  function CreateProbe(w: World, faults: set<Call>, parent: Result<Key>, test: Result<Key>): (r: Ret<bool>)
    requires parent.Ok? && test.Ok? ==> |test.value| > 0 && Parent(test.value) == parent.value
    ensures r.result.Ok?
    ensures !(parent.Ok? && IsDirAt(w.remote, parent.value)) ==> !r.result.value && r.world.remote == w.remote
    ensures r.result.value ==>
      && parent.Ok? && IsDirAt(w.remote, parent.value)
      && test.Ok? && test.value !in w.remote
      && r.world.remote == w.remote
    ensures test.Ok? ==> AgreeExcept(w.remote, r.world.remote, {test.value})
    ensures test.Err? ==> r.world.remote == w.remote
    ensures r.world.local == w.local
  {
    var d := DirProbe(w, faults, parent);
    if !d.result.value then Ret(d.world, Ok(false))
    else
      match test
      case Err(_) => Ret(d.world, Ok(false))
      case Ok(k) =>
        var mk := DoMkDirs(d.world, faults, k);
        if mk.result.Err? then Ret(mk.world, Ok(false))
        else
          MkDirsCreated(w.remote, k);
          var del := DoDelete(mk.world, faults, k);
          if del.result.Err? then Ret(del.world, Ok(false))
          else
            MkDirsUndone(w.remote, k);
            Ret(del.world, Ok(true))
  }

  /** On a working share the folder test passes below a directory that lacks the test folder. */
  lemma CreateProbeSucceeds(w: World, pk: Key, k: Key)
    requires IsDirAt(w.remote, pk) && |k| > 0 && Parent(k) == pk && k !in w.remote
    ensures CreateProbe(w, {}, Ok(pk), Ok(k)).result == Ok(true)
  {
    assert MkDirsAt(w.remote, k) == Some(w.remote[k := Dir]);
  }

  /**
   `testTargetCanCreate`: when the parent of the repository path is a directory,
   make the test folder there and remove it again; true only when all of that
   succeeded. The repository path must be set.
   */
  function TargetCanCreate(sess: Session, w: World, faults: set<Call>): (r: Ret<bool>)
    requires sess.path.Some?
    ensures r.result.Ok?
    ensures !IsDirAt(w.remote, ParentKey(sess, sess.path.value)) ==>
      !r.result.value && r.world.remote == w.remote
    ensures r.result.value ==>
      && IsDirAt(w.remote, ParentKey(sess, sess.path.value))
      && FolderTestKey(sess, sess.path.value) !in w.remote
      && r.world.remote == w.remote
    ensures AgreeExcept(w.remote, r.world.remote, {FolderTestKey(sess, sess.path.value)})
    ensures r.world.local == w.local
  {
    var path := sess.path.value;
    var pr := ParentRest(sess, path);
    FolderTestKeyUnderParent(sess, path);
    CreateProbe(w, faults, DirAddress(pr), DirAddress(pr + FolderTestName + "/"))
  }

  /** With a working share, a legal address and a parent directory without the test folder, the probe passes. */
  lemma TargetCanCreateSucceeds(sess: Session, w: World)
    requires sess.path.Some?
    requires SyntaxOk(ParentRest(sess, sess.path.value))
    requires IsDirAt(w.remote, ParentKey(sess, sess.path.value))
    requires FolderTestKey(sess, sess.path.value) !in w.remote
    ensures TargetCanCreate(sess, w, {}).result == Ok(true)
  {
    var path := sess.path.value;
    var pr := ParentRest(sess, path);
    FolderTestNameOk();
    SyntaxOkAppend(pr, FolderTestName + "/");
    Assoc(pr, FolderTestName, "/");
    FolderTestKeyUnderParent(sess, path);
    assert DirAddress(pr) == Ok(ParentKey(sess, path));
    assert DirAddress(pr + FolderTestName + "/") == Ok(FolderTestKey(sess, path));
    CreateProbeSucceeds(w, ParentKey(sess, path), FolderTestKey(sess, path));
  }

  /** The test folder's name, with its trailing '/', is legal in an address. */
  lemma FolderTestNameOk()
    ensures SyntaxOk(FolderTestName + "/")
  {
    LowerOrDashSyntaxOk(FolderTestName);
    SyntaxOkAppend(FolderTestName, "/");
  }

  /** What `mkdirs` adds is new, and a successful `mkdirs` always adds its target. */
  lemma MkDirsCreated(st: Remote, k: Key)
    requires MkDirsAt(st, k).Some?
    ensures k !in st && k in MkDirsAt(st, k).value
  {
    MkDirsAtGrows(st, k);
  }

  /**
   Making a folder whose parent already is a directory, then deleting it, gives
   back the share as it was.
   */
  lemma MkDirsUndone(st: Remote, k: Key)
    requires |k| > 0 && IsDirAt(st, Parent(k))
    requires MkDirsAt(st, k).Some?
    ensures MkDirsAt(st, k).value - {k} == st
  {
  }

  /** A directory path's segments, and those of a child directory below it. */
  lemma SplitChildDir(q: string, name: string)
    requires IsSegment(name)
    ensures Split(q + "/") == Split(q)
    ensures Split(q + "/" + (name + "/")) == Split(q) + [name]
  {
    assert q + "/" == q + "/" + "";
    SplitAppend(q, "");
    SplitAppend(q, name + "/");
    assert name + "/" == name + "/" + "";
    SplitAppend(name, "");
    SplitSegment(name);
  }

  /** The paths of an address ending in a directory and of a child directory below it. */
  lemma ChildDirPaths(repo: string, x: string, name: string)
    requires SegmentLength(repo) < |repo|
    ensures var q := SplitAuthority(repo).path + "/" + x;
      && SplitAuthority(repo + "/" + x + "/").path == q + "/"
      && SplitAuthority(repo + "/" + x + "/" + name + "/").path == q + "/" + (name + "/")
  {
    var tail := "/" + x + "/";
    var t := name + "/";
    var pr := repo + tail;
    var rp := SplitAuthority(repo).path;
    var q := rp + "/" + x;
    assert repo + "/" + x + "/" == pr by {
      Assoc(repo, "/" + x, "/");
      Assoc(repo, "/", x);
    }
    assert repo + "/" + x + "/" + name + "/" == pr + t by {
      Assoc(pr, name, "/");
    }
    SplitAuthorityExtend(repo, tail);
    assert SplitAuthority(pr).path == rp + tail;
    assert rp + tail == q + "/" by {
      Assoc(rp, "/" + x, "/");
      Assoc(rp, "/", x);
    }
    SplitAuthorityExtend(pr, t);
    assert SplitAuthority(pr + t).path == q + "/" + t;
  }

  /** Below an address whose authority has ended, a child directory is one more segment. */
  lemma ChildDirKey(repo: string, x: string, name: string)
    requires SegmentLength(repo) < |repo| && IsPlain(name)
    ensures Locate(SplitAuthority(repo + "/" + x + "/" + name + "/"))
         == Locate(SplitAuthority(repo + "/" + x + "/")) + [name]
  {
    ChildDirPaths(repo, x, name);
    var q := SplitAuthority(repo).path + "/" + x;
    SplitChildDir(q, name);
    LocateChild(SplitAuthority(repo + "/" + x + "/"), SplitAuthority(repo + "/" + x + "/" + name + "/"), name);
  }

  /** An address whose path splits into one plain segment more than another's lies one segment below it. */
  lemma LocateChild(dir: Url, child: Url, name: string)
    requires IsPlain(name) && Split(child.path) == Split(dir.path) + [name]
    ensures Locate(child) == Locate(dir) + [name]
  {
    ResolveAppend([], Split(dir.path), [name]);
    assert AllPlain([name]);
    ResolvePlain(Locate(dir), [name]);
  }

  /** The test folder is one segment below the parent directory. */
  lemma FolderTestKeyUnderParent(sess: Session, path: string)
    ensures FolderTestKey(sess, path) == ParentKey(sess, path) + [FolderTestName]
  {
    var repo := RepoRest(sess);
    assert SegmentLength(repo) < |repo| by {
      SegmentLengthAppend(sess.hostname, sess.share);
    }
    assert IsPlain(FolderTestName) by {
      assert FolderTestName[0] == 's';
      assert '/' !in FolderTestName;
    }
    ChildDirKey(repo, ParentPath(path), FolderTestName);
  }

  // ---------------------------------------------------------------------------
  // testRepoFileExists

  /** The repository marker. */
  function Marker(): RemoteFile {
    RemoteFile(Syncany, MarkerName)
  }

  /** `testRepoFileExists`: whether the marker at the repository root is a file. */
  function RepoFileExists(sess: Session, w: World, faults: set<Call>): (r: Ret<bool>)
    ensures r.result.Ok?
    ensures r.result.value <==>
      && SyntaxOk(RootRest(sess))
      && IsFile(RootKey(sess) + [MarkerName]) !in faults
      && IsFileAt(w.remote, RootKey(sess) + [MarkerName])
    ensures r.world.remote == w.remote && r.world.local == w.local
  {
    MarkerKeyAtRoot(sess);
    assert SyntaxOk(MarkerName) by {
      LowerOrDashSyntaxOk(MarkerName);
    }
    UnroutedSyntaxOk(sess, Marker());
    match CreateSmbFile(sess, Some(Marker()))
    case Err(_) => Ret(w, Ok(false))
    case Ok(u) =>
      CreateSmbFileLocates(sess, Some(Marker()));
      var d := DoIsFile(w, faults, Locate(u));
      Ret(d.world, Ok(d.result.Ok? && d.result.value))
  }
}

=== FILE: remote_files.dfy ===
/**
 Remote files and the category router: each remote-file class lives in one
 fixed subfolder of the repository, and every class outside the five
 categories lives at the repository root.
 */
module RemoteFiles {
  import opened Results
  import opened Paths

  /** The remote-file classes the router distinguishes. */
  datatype FileClass =
    | Multichunk
    | Database
    | Action
    | Transaction
    | Temp
    | Syncany                  // the repository marker file
    | Samba                    // the plugin's own untyped remote file
    | Other(className: string) // any further remote-file class

  /** A remote file: its class and its bare name. */
  datatype RemoteFile = RemoteFile(cls: FileClass, name: string)

  /** The five categories, in the order the layout is created. */
  const Categories: seq<FileClass> := [Multichunk, Database, Action, Transaction, Temp]

  /** The repository marker's fixed name. */
  const MarkerName := "syncany"

  predicate IsCategory(c: FileClass) {
    c.Multichunk? || c.Database? || c.Action? || c.Transaction? || c.Temp?
  }

  /** The directory name of each category (the constructor's path fields, without their slashes). */
  function DirName(c: FileClass): string
    requires IsCategory(c)
  {
    match c
    case Multichunk => "multichunks"
    case Database => "databases"
    case Action => "actions"
    case Transaction => "transactions"
    case Temp => "temporary"
  }

  /** The subfolder a class is routed to (`getRemoteFilePath`): "/name/" for a category, "" otherwise. */
  function FolderOf(c: FileClass): (f: string)
    ensures f == "" <==> !IsCategory(c)
  {
    if IsCategory(c) then "/" + DirName(c) + "/" else ""
  }

  /** Reads a category back from its folder: the inverse of `FolderOf` on categories. */
  function ClassOfFolder(f: string): (r: Option<FileClass>)
    ensures r.Some? ==> IsCategory(r.value)
  {
    if f == "/multichunks/" then Some(Multichunk)
    else if f == "/databases/" then Some(Database)
    else if f == "/actions/" then Some(Action)
    else if f == "/transactions/" then Some(Transaction)
    else if f == "/temporary/" then Some(Temp)
    else None
  }

  /** Every category's folder reads back as that category; no other class has a folder. */
  lemma FolderRoundTrip(c: FileClass)
    ensures IsCategory(c) ==> ClassOfFolder(FolderOf(c)) == Some(c)
    ensures !IsCategory(c) ==> ClassOfFolder(FolderOf(c)) == None
  {
    if IsCategory(c) {
      CategoryRoundTrip(c);
    } else {
      assert FolderOf(c) == "";
    }
  }

  lemma CategoryRoundTrip(c: FileClass)
    requires IsCategory(c)
    ensures ClassOfFolder(FolderOf(c)) == Some(c)
  {
    match c
    case Multichunk => assert FolderOf(c) == "/multichunks/";
    case Database =>
      assert FolderOf(c) == "/databases/";
      assert |FolderOf(c)| != |"/multichunks/"|;
    case Action =>
      assert FolderOf(c) == "/actions/";
      assert |FolderOf(c)| != |"/multichunks/"| && |FolderOf(c)| != |"/databases/"|;
    case Transaction =>
      assert FolderOf(c) == "/transactions/";
      assert |FolderOf(c)| !in {|"/multichunks/"|, |"/databases/"|, |"/actions/"|};
    case Temp =>
      assert FolderOf(c) == "/temporary/";
      assert |FolderOf(c)| !in {|"/multichunks/"|, |"/actions/"|, |"/transactions/"|};
      assert FolderOf(c)[1] != "/databases/"[1];
  }

  /** Distinct categories never share a folder. */
  lemma FolderInjective(c: FileClass, d: FileClass)
    requires IsCategory(c) && IsCategory(d) && c != d
    ensures FolderOf(c) != FolderOf(d)
  {
    FolderRoundTrip(c);
    FolderRoundTrip(d);
  }

  /** A category folder is one plain directory name between slashes; the fallback has no segments. */
  lemma FolderSegments(c: FileClass)
    ensures IsCategory(c) ==> IsPlain(DirName(c))
    ensures Split(FolderOf(c)) == if IsCategory(c) then [DirName(c)] else []
    ensures AllPlain(Split(FolderOf(c)))
  {
    if IsCategory(c) {
      SplitDirectory(DirName(c));
    }
  }
}

=== FILE: results.dfy ===
/** Optional values, results and the exceptions the transfer manager can raise. */
module Results {

  /** A Java reference that may be null. */
  datatype Option<+T> = None | Some(value: T)

  /** The exception classes an operation can end with. */
  datatype Failure =
    | StorageException          // generic storage failure
    | StorageFileNotFound       // a remote file could not be read
    | StorageMove               // a rename between two remote files failed
    | IllegalArgument           // URI.create rejected the address (unchecked, never wrapped)

  /** Normal completion with a value, or an exception. */
  datatype Result<+T> = Ok(value: T) | Err(failure: Failure)

  /** How Java's string concatenation renders a possibly-null string. */
  function Text(s: Option<string>): string {
    match s
    case Some(v) => v
    case None => "null"
  }

  /** `Map.get`: the value under a key, or null. */
  function Lookup(m: map<string, string>, key: string): (r: Option<string>)
    ensures r.Some? <==> key in m
    ensures r.Some? ==> r.value == m[key]
  {
    if key in m then Some(m[key]) else None
  }

  /** Concatenation regroups freely. */
  lemma Assoc<T>(x: seq<T>, y: seq<T>, z: seq<T>)
    ensures x + y + z == x + (y + z)
  {
  }
}

=== FILE: store.dfy ===
/**
 An abstract model of what the transfer manager can observe of the Samba share
 and of the local disk, and of the backend calls it issues.

 The share is a map from a location (the segments of a normalised path) to a
 file or a directory; the share's own root always exists. Every call is
 appended to a trace. A call listed in the fault set throws and has no effect;
 otherwise it behaves as stated on each primitive below, which are the model's
 assumptions about the Samba client and the local file system.
 */
module Store {
  import opened Results

  newtype byte = b: int | 0 <= b < 256

  /** The segments of a normalised share path. */
  type Key = seq<string>

  datatype Node = File(content: seq<byte>) | Dir

  type Remote = map<Key, Node>

  /** The local file system: path to file contents. */
  type Local = map<string, seq<byte>>

  /** One backend or local-disk call, as the trace records it. */
  datatype Call =
    | Exists(key: Key)
    | IsDirectory(key: Key)
    | IsFile(key: Key)
    | MkDir(key: Key)
    | MkDirs(key: Key)
    | Open(key: Key)
    | Write(key: Key)
    | Delete(key: Key)
    | Rename(source: Key, target: Key)
    | ListFiles(key: Key)
    | CreateTemp(path: string)
    | ReadLocal(path: string)
    | DeleteLocal(path: string)
    | MoveLocal(from: string, to: string)

  /** Everything an operation can change. */
  datatype World = World(remote: Remote, local: Local, trace: seq<Call>)

  /** The world after an operation, and how the operation ended. */
  datatype Ret<+T> = Ret(world: World, result: Result<T>)

  predicate IsDirAt(st: Remote, k: Key) {
    |k| == 0 || (k in st && st[k].Dir?)
  }

  predicate IsFileAt(st: Remote, k: Key) {
    k in st && st[k].File?
  }

  function Parent(k: Key): Key
    requires |k| > 0
  {
    k[..|k| - 1]
  }

  /** A new entry can be made at `k`: nothing is there and its parent is a directory. */
  predicate Creatable(st: Remote, k: Key) {
    |k| > 0 && k !in st && IsDirAt(st, Parent(k))
  }

  /**
   A share shaped like a tree: the root is implicit and every entry's parent is
   a directory.
   */
  predicate WellFormed(st: Remote) {
    forall k :: k in st ==> |k| > 0 && IsDirAt(st, Parent(k))
  }

  /** Two shares that differ at most at the locations in `except`. */
  ghost predicate AgreeExcept(st: Remote, st': Remote, except: set<Key>) {
    forall k :: k !in except ==> (k in st <==> k in st') && (k in st ==> st[k] == st'[k])
  }

  /** Records a call. */
  function Log(w: World, c: Call): World {
    w.(trace := w.trace + [c])
  }

  // ---------------------------------------------------------------------------
  // Share primitives

  /** `mkdir`: fails when something is already there or the parent is not a directory. */
  function DoMkDir(w: World, faults: set<Call>, k: Key): Ret<()> {
    var w' := Log(w, MkDir(k));
    if MkDir(k) in faults || !Creatable(w.remote, k) then Ret(w', Err(StorageException))
    else Ret(w'.(remote := w.remote[k := Dir]), Ok(()))
  }

  /** The share after `mkdirs` of `k`: missing ancestors first, then `k` itself. */
  function MkDirsAt(st: Remote, k: Key): Option<Remote>
    decreases |k|
  {
    if |k| == 0 || k in st then None
    else if IsDirAt(st, Parent(k)) then Some(st[k := Dir])
    else if Parent(k) in st then None
    else
      match MkDirsAt(st, Parent(k))
      case None => None
      case Some(st') => Some(st'[k := Dir])
  }

  function DoMkDirs(w: World, faults: set<Call>, k: Key): Ret<()> {
    var w' := Log(w, MkDirs(k));
    if MkDirs(k) in faults then Ret(w', Err(StorageException))
    else
      match MkDirsAt(w.remote, k)
      case None => Ret(w', Err(StorageException))
      case Some(st) => Ret(w'.(remote := st), Ok(()))
  }

  /** `isDirectory`: a missing location is not a directory. */
  function DoIsDirectory(w: World, faults: set<Call>, k: Key): Ret<bool> {
    var w' := Log(w, IsDirectory(k));
    if IsDirectory(k) in faults then Ret(w', Err(StorageException))
    else Ret(w', Ok(IsDirAt(w.remote, k)))
  }

  /** `isFile`: a missing location is not a file. */
  function DoIsFile(w: World, faults: set<Call>, k: Key): Ret<bool> {
    var w' := Log(w, IsFile(k));
    if IsFile(k) in faults then Ret(w', Err(StorageException))
    else Ret(w', Ok(IsFileAt(w.remote, k)))
  }

  /** Opening and reading a remote file to its end; only a file can be read. */
  function DoRead(w: World, faults: set<Call>, k: Key): Ret<seq<byte>> {
    var w' := Log(w, Open(k));
    if Open(k) in faults || !IsFileAt(w.remote, k) then Ret(w', Err(StorageException))
    else Ret(w', Ok(w.remote[k].content))
  }

  /** Writing a remote file (create or truncate); the parent must be a directory. */
  function DoWrite(w: World, faults: set<Call>, k: Key, data: seq<byte>): Ret<()> {
    var w' := Log(w, Write(k));
    if Write(k) in faults || |k| == 0 || IsDirAt(w.remote, k) || !IsDirAt(w.remote, Parent(k)) then
      Ret(w', Err(StorageException))
    else Ret(w'.(remote := w.remote[k := File(data)]), Ok(()))
  }

  /** `delete`: fails when nothing is there. */
  function DoDelete(w: World, faults: set<Call>, k: Key): Ret<()> {
    var w' := Log(w, Delete(k));
    if Delete(k) in faults || k !in w.remote then Ret(w', Err(StorageException))
    else Ret(w'.(remote := w.remote - {k}), Ok(()))
  }

  /** `renameTo`: the source must exist and the target must not. */
  function DoRename(w: World, faults: set<Call>, a: Key, b: Key): Ret<()> {
    var w' := Log(w, Rename(a, b));
    if Rename(a, b) in faults || a !in w.remote || !Creatable(w.remote, b) then Ret(w', Err(StorageException))
    else Ret(w'.(remote := (w.remote - {a})[b := w.remote[a]]), Ok(()))
  }

  /** The name `listFiles` reports for an entry: directories carry a trailing '/'. */
  function EntryName(segment: string, n: Node): string {
    if n.Dir? then segment + "/" else segment
  }

  /** The names of the direct children of `k`. */
  function Children(st: Remote, k: Key): set<string> {
    set c | c in st && |c| == |k| + 1 && c[..|k|] == k :: EntryName(c[|k|], st[c])
  }

  /** `listFiles`: only a directory can be listed. */
  function DoListFiles(w: World, faults: set<Call>, k: Key): Ret<set<string>> {
    var w' := Log(w, ListFiles(k));
    if ListFiles(k) in faults || !IsDirAt(w.remote, k) then Ret(w', Err(StorageException))
    else Ret(w', Ok(Children(w.remote, k)))
  }

  // ---------------------------------------------------------------------------
  // Local primitives

  /** Creating a fresh, empty local temporary file. */
  function DoCreateTemp(w: World, faults: set<Call>, t: string): Ret<()> {
    var w' := Log(w, CreateTemp(t));
    if CreateTemp(t) in faults || t in w.local then Ret(w', Err(StorageException))
    else Ret(w'.(local := w.local[t := []]), Ok(()))
  }

  /** Opening and reading a local file to its end. */
  function DoReadLocal(w: World, faults: set<Call>, p: string): Ret<seq<byte>> {
    var w' := Log(w, ReadLocal(p));
    if ReadLocal(p) in faults || p !in w.local then Ret(w', Err(StorageException))
    else Ret(w', Ok(w.local[p]))
  }

  /** `File.delete`: never throws; a failed delete leaves the file in place. */
  function DoDeleteLocal(w: World, faults: set<Call>, p: string): World {
    var w' := Log(w, DeleteLocal(p));
    if DeleteLocal(p) in faults then w' else w'.(local := w.local - {p})
  }

  /** `FileUtils.moveFile`: the source must exist and the target must not. */
  function DoMoveLocal(w: World, faults: set<Call>, a: string, b: string): Ret<()> {
    var w' := Log(w, MoveLocal(a, b));
    if MoveLocal(a, b) in faults || a !in w.local || b in w.local then Ret(w', Err(StorageException))
    else Ret(w'.(local := (w.local - {a})[b := w.local[a]]), Ok(()))
  }

  /** `mkdirs` only ever adds directories: every existing entry survives unchanged. */
  lemma {:induction false} MkDirsAtGrows(st: Remote, k: Key)
    requires MkDirsAt(st, k).Some?
    ensures var st' := MkDirsAt(st, k).value;
      && IsDirAt(st', k)
      && (forall j :: j in st ==> j in st' && st'[j] == st[j])
      && (forall j :: j in st' && j !in st ==> st'[j] == Dir)
    decreases |k|
  {
    if !IsDirAt(st, Parent(k)) {
      MkDirsAtGrows(st, Parent(k));
    }
  }
}

=== FILE: transfer_settings.dfy ===
/**
 The Samba connection settings: five nullable string fields, the option
 specifications that describe them, initialisation from an option map, and
 the human-readable rendering that hides the password.
 */
module TransferSettings {
  import opened Results

  datatype Settings = Settings(
    hostname: Option<string>,
    username: Option<string>,
    password: Option<string>,
    share: Option<string>,
    path: Option<string>)

  /** A freshly constructed settings object: every field is null. */
  const Unset := Settings(None, None, None, None, None)

  datatype Field = Hostname | Username | Password | Share | Path

  /** The getter of a field. */
  function Get(s: Settings, f: Field): Option<string> {
    match f
    case Hostname => s.hostname
    case Username => s.username
    case Password => s.password
    case Share => s.share
    case Path => s.path
  }

  /** The setter of a field: reading it back gives the new value, every other field is kept. */
  function Set(s: Settings, f: Field, v: Option<string>): (r: Settings)
    ensures Get(r, f) == v
    ensures forall g :: g != f ==> Get(r, g) == Get(s, g)
  {
    match f
    case Hostname => s.(hostname := v)
    case Username => s.(username := v)
    case Password => s.(password := v)
    case Share => s.(share := v)
    case Path => s.(path := v)
  }

  /** The option key each field is read from. */
  function KeyOf(f: Field): string {
    match f
    case Hostname => "hostname"
    case Username => "username"
    case Password => "password"
    case Share => "share"
    case Path => "path"
  }

  datatype ValueType = StringValue

  datatype OptionSpec = OptionSpec(
    id: string,
    description: string,
    valueType: ValueType,
    mandatory: bool,
    sensitive: bool,
    defaultValue: Option<string>)

  /** The plugin's option specifications, in declaration order. */
  function OptionSpecs(): seq<OptionSpec> {
    [
      OptionSpec("hostname", "Hostname", StringValue, true, false, None),
      OptionSpec("username", "Username", StringValue, true, false, None),
      OptionSpec("password", "Password", StringValue, true, true, None),
      OptionSpec("share", "Share", StringValue, true, false, None),
      OptionSpec("path", "Path", StringValue, false, false, Some("/"))
    ]
  }

  const Fields: seq<Field> := [Hostname, Username, Password, Share, Path]

  /**
   The specifications describe exactly the five fields, one each and in order;
   hostname, username, password and share are mandatory, path is optional with
   default "/", and only the password is sensitive.
   */
  lemma OptionSpecsDescribeFields()
    ensures |OptionSpecs()| == |Fields|
    ensures forall i :: 0 <= i < |Fields| ==> OptionSpecs()[i].id == KeyOf(Fields[i])
    ensures forall i :: 0 <= i < |Fields| ==>
      (OptionSpecs()[i].mandatory <==> Fields[i] != Path)
    ensures forall i :: 0 <= i < |Fields| ==>
      (OptionSpecs()[i].sensitive <==> Fields[i] == Password)
    ensures forall i :: 0 <= i < |Fields| ==>
      (OptionSpecs()[i].defaultValue.Some? <==> Fields[i] == Path)
    ensures OptionSpecs()[4].defaultValue == Some("/")
    ensures forall f: Field :: f in Fields
  {
    forall f: Field ensures f in Fields {
      match f
      case Hostname => assert Fields[0] == f;
      case Username => assert Fields[1] == f;
      case Password => assert Fields[2] == f;
      case Share => assert Fields[3] == f;
      case Path => assert Fields[4] == f;
    }
  }

  /** The keys of the mandatory specifications. */
  function MandatoryKeys(): set<string> {
    set i | 0 <= i < |OptionSpecs()| && OptionSpecs()[i].mandatory :: OptionSpecs()[i].id
  }

  /**
   `init`: validation runs first and, when it rejects the values, no field is
   assigned; otherwise each field takes the value under its key, verbatim (null
   when the key is absent). `valid` stands for the option specifications'
   validation, whose rules are not part of this model.
   */
  function Init(s: Settings, values: map<string, string>, valid: map<string, string> -> bool)
    : (r: (Settings, Result<()>))
    ensures r.1.Err? <==> !valid(values)
    ensures r.1.Err? ==> r.0 == s && r.1.failure == StorageException
    ensures r.1.Ok? ==> forall f :: Get(r.0, f) == Lookup(values, KeyOf(f))
  {
    if !valid(values) then (s, Err(StorageException))
    else
      var t := Settings(
        Lookup(values, "hostname"),
        Lookup(values, "username"),
        Lookup(values, "password"),
        Lookup(values, "share"),
        Lookup(values, "path"));
      (t, Ok(()))
  }

  /** When validation admits only maps holding every mandatory key, those four fields are set after `init`. */
  lemma InitSetsMandatory(s: Settings, values: map<string, string>, valid: map<string, string> -> bool)
    requires forall m :: valid(m) ==> MandatoryKeys() <= m.Keys
    requires valid(values)
    ensures Init(s, values, valid).1.Ok?
    ensures forall f :: f != Path ==> Get(Init(s, values, valid).0, f).Some?
  {
    var specs := OptionSpecs();
    assert specs[0].id in MandatoryKeys();
    assert specs[1].id in MandatoryKeys();
    assert specs[2].id in MandatoryKeys();
    assert specs[3].id in MandatoryKeys();
  }

  /** The password as `toString` shows it. */
  function Masked(password: Option<string>): string {
    if password.Some? then "<hidden>" else "none"
  }

  /** `toString`: hostname, share, path and username verbatim, then the masked password. */
  function ToString(s: Settings): string {
    "SambaTransferSettings{hostname=" + Text(s.hostname)
    + ", share=" + Text(s.share)
    + ", path=" + Text(s.path)
    + ", username=" + Text(s.username)
    + ", password=" + Masked(s.password)
    + "}"
  }

  /** The rendering depends on the password only through whether it is null. */
  lemma ToStringHidesPassword(s: Settings, p: string, q: string)
    ensures ToString(s.(password := Some(p))) == ToString(s.(password := Some(q)))
    ensures ToString(s.(password := Some(p))) != ToString(s.(password := None))
  {
    var a := ToString(s.(password := Some(p)));
    var b := ToString(s.(password := None));
    assert |a| == |b| + 4;
  }

  /**
   The rendering lists the fields in order: the class name and the verbatim
   hostname, then share, path and username, each verbatim after its label, and
   last the masked password and the closing brace.
   */
  lemma ToStringLayout(s: Settings)
    ensures var r := ToString(s);
      var a := "SambaTransferSettings{hostname=" + Text(s.hostname);
      var b := ", share=" + Text(s.share);
      var c := ", path=" + Text(s.path);
      var d := ", username=" + Text(s.username);
      var e := ", password=" + Masked(s.password) + "}";
      && |r| == |a| + |b| + |c| + |d| + |e|
      && r[..|a|] == a
      && r[|a|..|a| + |b|] == b
      && r[|a| + |b|..|a| + |b| + |c|] == c
      && r[|a| + |b| + |c|..|a| + |b| + |c| + |d|] == d
      && r[|a| + |b| + |c| + |d|..] == e
  {
    var r := ToString(s);
    var a := "SambaTransferSettings{hostname=" + Text(s.hostname);
    var b := ", share=" + Text(s.share);
    var c := ", path=" + Text(s.path);
    var d := ", username=" + Text(s.username);
    var e := ", password=" + Masked(s.password) + "}";
    Assoc(a, ", share=", Text(s.share));
    Assoc(a + b, ", path=", Text(s.path));
    Assoc(a + b + c, ", username=", Text(s.username));
    Assoc(a + b + c + d, ", password=", Masked(s.password));
    Assoc(a + b + c + d + ", password=", Masked(s.password), "}");
    Assoc(a + b + c + d, ", password=" + Masked(s.password), "}");
    FiveParts(a, b, c, d, e);
  }

  /** Where each of five consecutive parts sits in their concatenation. */
  lemma FiveParts(a: string, b: string, c: string, d: string, e: string)
    ensures var r := a + b + c + d + e;
      && |r| == |a| + |b| + |c| + |d| + |e|
      && r[..|a|] == a
      && r[|a|..|a| + |b|] == b
      && r[|a| + |b|..|a| + |b| + |c|] == c
      && r[|a| + |b| + |c|..|a| + |b| + |c| + |d|] == d
      && r[|a| + |b| + |c| + |d|..] == e
  {
    var ab := a + b;
    var abc := ab + c;
    var abcd := abc + d;
    assert abcd[..|abc|] == abc;
    assert abc[..|ab|] == ab;
    assert (abcd + e)[..|abcd|] == abcd;
  }
}

=== FILE: transfers.dfy ===
/**
 The transfer operations of the manager over the abstract share: `connect`,
 `disconnect`, `init`, `download`, `upload`, `delete`, `move` and `list`.

 Each operation takes the world before the call and the set of backend calls
 that fail, and returns the world after the call with how it ended. `Err`
 carries the exception the operation lets escape: `IllegalArgument` is the
 unchecked exception `URI.create` raises for an illegal address, which only
 `move` and the probes catch.
 */
module Transfers {
  import opened Results
  import opened Paths
  import opened Uri
  import opened RemoteFiles
  import opened Store
  import opened Addresses
  import opened Probes

  /** An operation only ever adds directories: whatever existed survives unchanged. */
  predicate OnlyAddsDirs(st: Remote, st': Remote) {
    && (forall k :: k in st ==> k in st' && st'[k] == st[k])
    && (forall k :: k in st' && k !in st ==> st'[k] == Dir)
  }

  /** The trace grew from `t0` to `t` without a `mkdirs` call. */
  predicate NoMkDirs(t0: seq<Call>, t: seq<Call>) {
    && |t0| <= |t|
    && t[..|t0|] == t0
    && (forall i :: |t0| <= i < |t| ==> !t[i].MkDirs?)
  }

  lemma NoMkDirsTrans(t0: seq<Call>, t1: seq<Call>, t2: seq<Call>)
    requires NoMkDirs(t0, t1) && NoMkDirs(t1, t2)
    ensures NoMkDirs(t0, t2)
  {
    assert t2[..|t0|] == t1[..|t1|][..|t0|];
    forall i | |t0| <= i < |t2| ensures !t2[i].MkDirs? {
      if i < |t1| {
        assert t2[i] == t2[..|t1|][i];
      }
    }
  }

  // ---------------------------------------------------------------------------
  // connect / disconnect

  /** Asking whether a location exists and ignoring the answer; only a failing call is an error. */
  function Reach(w: World, faults: set<Call>, repo: Key): (r: Ret<()>)
    ensures r.world.remote == w.remote && r.world.local == w.local
    ensures r.result.Err? <==> Exists(repo) in faults
    ensures r.result.Err? ==> r.result.failure == StorageException
    ensures r.world.trace == w.trace + [Exists(repo)]
  {
    var w' := Log(w, Exists(repo));
    if Exists(repo) in faults then Ret(w', Err(StorageException))
    else Ret(w', Ok(()))
  }

  /** `connect`: asks whether `repoPath` exists and ignores the answer; only a failing call is an error. */
  function Connect(sess: Session, w: World, faults: set<Call>): (r: Ret<()>)
    ensures r.world.remote == w.remote && r.world.local == w.local
    ensures r.result.Err? <==> Exists(RepoKey(sess)) in faults
    ensures r.result.Err? ==> r.result.failure == StorageException
  {
    Reach(w, faults, RepoKey(sess))
  }

  /** `disconnect` does nothing. */
  function Disconnect(w: World): (r: World)
    ensures r == w
  {
    w
  }

  // ---------------------------------------------------------------------------
  // init

  /**
   Directory creation in order, at already resolved locations: the first refused
   address or failing `mkdir` stops the rest. On success every location was new
   and is now a directory, and the first one's parent was a directory.
   */
  function MakeDirs(w: World, faults: set<Call>, dirs: seq<Result<Key>>): (r: Ret<()>)
    ensures r.world.local == w.local
    ensures OnlyAddsDirs(w.remote, r.world.remote)
    ensures NoMkDirs(w.trace, r.world.trace)
    ensures r.result.Err? ==>
      r.result.failure == StorageException || Err(r.result.failure) in dirs
    ensures r.result.Ok? ==> forall i :: 0 <= i < |dirs| ==>
      && dirs[i].Ok?
      && dirs[i].value !in w.remote
      && dirs[i].value in r.world.remote
      && r.world.remote[dirs[i].value] == Dir
    ensures r.result.Ok? && |dirs| > 0 ==> |dirs[0].value| > 0 && IsDirAt(w.remote, Parent(dirs[0].value))
    decreases |dirs|
  {
    if |dirs| == 0 then Ret(w, Ok(()))
    else
      match dirs[0]
      case Err(e) => Ret(w, Err(e))
      case Ok(k) =>
        var m := DoMkDir(w, faults, k);
        if m.result.Err? then m
        else
          var rest := MakeDirs(m.world, faults, dirs[1..]);
          NoMkDirsTrans(w.trace, m.world.trace, rest.world.trace);
          assert forall i :: 1 <= i < |dirs| ==> dirs[i] == dirs[1..][i - 1];
          rest
  }

  /** The locations of resolved addresses, in order (a refused one stands as the root). */
  function OkKeys(dirs: seq<Result<Key>>): (r: seq<Key>)
    ensures |r| == |dirs|
    ensures forall i :: 0 <= i < |dirs| && dirs[i].Ok? ==> r[i] == dirs[i].value
    decreases |dirs|
  {
    if |dirs| == 0 then []
    else
      var rest := OkKeys(dirs[1..]);
      assert forall i :: 1 <= i < |dirs| ==> dirs[i] == dirs[1..][i - 1];
      [if dirs[0].Ok? then dirs[0].value else []] + rest
  }

  /** A `mkdir` call for each key, in order. */
  function MkDirCalls(keys: seq<Key>): (r: seq<Call>)
    ensures |r| == |keys|
    ensures forall i :: 0 <= i < |keys| ==> r[i] == MkDir(keys[i])
    decreases |keys|
  {
    if |keys| == 0 then []
    else
      var rest := MkDirCalls(keys[1..]);
      assert forall i :: 1 <= i < |keys| ==> keys[i] == keys[1..][i - 1];
      [MkDir(keys[0])] + rest
  }

  lemma MkDirCallsCons(dirs: seq<Result<Key>>)
    requires |dirs| > 0 && dirs[0].Ok?
    ensures MkDirCalls(OkKeys(dirs)) == [MkDir(dirs[0].value)] + MkDirCalls(OkKeys(dirs[1..]))
  {
    var lhs := MkDirCalls(OkKeys(dirs));
    var rhs := [MkDir(dirs[0].value)] + MkDirCalls(OkKeys(dirs[1..]));
    forall i | 0 <= i < |lhs| ensures lhs[i] == rhs[i] {
      if i > 0 {
        assert dirs[i] == dirs[1..][i - 1];
      }
    }
  }

  /** A successful `MakeDirs` logs exactly one `mkdir` per directory, in order. */
  lemma {:induction false} MakeDirsLog(w: World, faults: set<Call>, dirs: seq<Result<Key>>)
    requires MakeDirs(w, faults, dirs).result.Ok?
    ensures MakeDirs(w, faults, dirs).world.trace == w.trace + MkDirCalls(OkKeys(dirs))
    decreases |dirs|
  {
    if |dirs| > 0 {
      var k := dirs[0].value;
      var m := DoMkDir(w, faults, k);
      MakeDirsLog(m.world, faults, dirs[1..]);
      MkDirCallsCons(dirs);
      Assoc(w.trace, [MkDir(k)], MkDirCalls(OkKeys(dirs[1..])));
    }
  }

  /**
   `after` is `before` extended by the `mkdir`s of a run over `dirs` that stopped
   at index `i`: all addresses before `i` resolved and got their `mkdir`, the one
   at `i` got its `mkdir` only if it resolved, and none after it was tried.
   */
  predicate StopsAt(dirs: seq<Result<Key>>, i: int, before: seq<Call>, after: seq<Call>) {
    && 0 <= i < |dirs|
    && (forall j :: 0 <= j < i ==> dirs[j].Ok?)
    && after == before + MkDirCalls(OkKeys(dirs[..i])) + (if dirs[i].Ok? then [MkDir(dirs[i].value)] else [])
  }

  /**
   A failing `MakeDirs` stops at the first refused address or failing `mkdir`.
   */
  lemma {:induction false} MakeDirsStops(w: World, faults: set<Call>, dirs: seq<Result<Key>>)
    requires MakeDirs(w, faults, dirs).result.Err?
    ensures exists i :: StopsAt(dirs, i, w.trace, MakeDirs(w, faults, dirs).world.trace)
    decreases |dirs|
  {
    var t := MakeDirs(w, faults, dirs).world.trace;
    assert dirs[..0] == [];
    if dirs[0].Err? {
      assert t == w.trace + MkDirCalls(OkKeys(dirs[..0])) + [];
      assert StopsAt(dirs, 0, w.trace, t);
    } else {
      var k := dirs[0].value;
      var m := DoMkDir(w, faults, k);
      if m.result.Err? {
        assert t == w.trace + MkDirCalls(OkKeys(dirs[..0])) + [MkDir(k)];
        assert StopsAt(dirs, 0, w.trace, t);
      } else {
        MakeDirsStops(m.world, faults, dirs[1..]);
        var i :| StopsAt(dirs[1..], i, w.trace + [MkDir(k)], t);
        StopsAtCons(dirs, i, w.trace, t);
      }
    }
  }

  /** A run that stopped over the tail, after a first `mkdir`, stopped one index later over the whole. */
  lemma StopsAtCons(dirs: seq<Result<Key>>, i: int, before: seq<Call>, t: seq<Call>)
    requires |dirs| > 0 && dirs[0].Ok?
    requires StopsAt(dirs[1..], i, before + [MkDir(dirs[0].value)], t)
    ensures StopsAt(dirs, i + 1, before, t)
  {
    var k := dirs[0].value;
    var rest := dirs[1..];
    var tail := if rest[i].Ok? then [MkDir(rest[i].value)] else [];
    assert dirs[..i + 1][1..] == rest[..i];
    MkDirCallsCons(dirs[..i + 1]);
    Assoc(before, [MkDir(k)], MkDirCalls(OkKeys(rest[..i])));
    assert rest[i] == dirs[i + 1];
    forall j | 0 <= j < i + 1 ensures dirs[j].Ok? {
      if j > 0 { assert dirs[j] == rest[j - 1]; }
    }
    assert t == before + MkDirCalls(OkKeys(dirs[..i + 1])) + tail;
  }

  /** Where `init` creates the category folders, in order. */
  function FolderAddresses(sess: Session): (r: seq<Result<Key>>)
    ensures |r| == |Categories|
    ensures forall i :: 0 <= i < |r| ==> r[i] == FileAddress(sess, FolderDir(Categories[i]))
  {
    AddressesOf(sess, Categories)
  }

  /** The addresses of the folders of the classes `cs`, in order. */
  function AddressesOf(sess: Session, cs: seq<FileClass>): (r: seq<Result<Key>>)
    ensures |r| == |cs|
    ensures forall i :: 0 <= i < |r| ==> r[i] == FileAddress(sess, FolderDir(cs[i]))
    decreases |cs|
  {
    if |cs| == 0 then []
    else
      var rest := AddressesOf(sess, cs[1..]);
      assert forall i :: 1 <= i < |cs| ==> cs[i] == cs[1..][i - 1];
      [FileAddress(sess, FolderDir(cs[0]))] + rest
  }

  /** A category folder's address is refused exactly when the root's is; otherwise it is the folder. */
  lemma FolderAddressAt(sess: Session, i: nat)
    requires i < |Categories|
    ensures FolderAddresses(sess)[i]
      == if SyntaxOk(RootRest(sess)) then Ok(FolderKey(sess, Categories[i])) else Err(IllegalArgument)
  {
    FolderDirSyntax(sess, Categories[i]);
  }

  /**
   The steps of `init` at resolved locations: reach `repo`; probe `root`; when
   that is not a directory and `create` holds, `mkdirs` at `rootKey`; then make
   the directories `dirs` in order.
   */
  function Setup(w: World, faults: set<Call>, repo: Key, root: Result<Key>, rootKey: Key, create: bool,
                 dirs: seq<Result<Key>>): (r: Ret<()>)
    ensures r.world.local == w.local
    ensures OnlyAddsDirs(w.remote, r.world.remote)
    ensures r.result.Err? ==>
      r.result.failure == StorageException || Err(r.result.failure) in dirs
    ensures Exists(repo) in faults ==> r.result == Err(StorageException) && r.world.remote == w.remote
    ensures r.result.Ok? ==> forall i :: 0 <= i < |dirs| ==>
      && dirs[i].Ok?
      && dirs[i].value !in w.remote
      && dirs[i].value in r.world.remote
      && r.world.remote[dirs[i].value] == Dir
  {
    var c := Reach(w, faults, repo);
    if c.result.Err? then c
    else
      var e := DirProbe(c.world, faults, root);
      var mkdirs := !e.result.value && create;
      var m := if mkdirs then DoMkDirs(e.world, faults, rootKey) else Ret(e.world, Ok(()));
      InitRootStep(e.world, faults, rootKey, mkdirs);
      if m.result.Err? then Ret(Disconnect(m.world), Err(StorageException))
      else
        var f := MakeDirs(m.world, faults, dirs);
        Ret(Disconnect(f.world), f.result)
  }

  /**
   Once the repository is reached, `Setup` asked to create logs a `mkdirs` of
   the root whenever the root probe does not find a directory.
   */
  lemma SetupMakesRoot(w: World, faults: set<Call>, repo: Key, root: Result<Key>, rootKey: Key, create: bool,
                       dirs: seq<Result<Key>>)
    requires create && Exists(repo) !in faults
    requires !(root.Ok? && IsDirectory(root.value) !in faults && IsDirAt(w.remote, root.value))
    ensures MkDirs(rootKey) in Setup(w, faults, repo, root, rootKey, create, dirs).world.trace
  {
    var c := Reach(w, faults, repo);
    var e := DirProbe(c.world, faults, root);
    InitRootStep(e.world, faults, rootKey, true);
    var m := DoMkDirs(e.world, faults, rootKey);
    assert m.world.trace[|e.world.trace|] == MkDirs(rootKey);
    if m.result.Ok? {
      var f := MakeDirs(m.world, faults, dirs);
      assert f.world.trace[..|m.world.trace|] == m.world.trace by {
        assert NoMkDirs(m.world.trace, f.world.trace);
      }
      assert f.world.trace[|e.world.trace|] == MkDirs(rootKey);
    }
  }

  /**
   The calls of a successful `Setup`, in order: the repository check, the root
   probe (when the root address is legal), the root `mkdirs` (when asked to
   create and the probe found no directory), then one `mkdir` per folder.
   */
  lemma SetupLog(w: World, faults: set<Call>, repo: Key, root: Result<Key>, rootKey: Key, create: bool,
                 dirs: seq<Result<Key>>)
    requires Setup(w, faults, repo, root, rootKey, create, dirs).result.Ok?
    ensures var probe := if root.Ok? then [IsDirectory(root.value)] else [];
      var found := root.Ok? && IsDirectory(root.value) !in faults && IsDirAt(w.remote, root.value);
      var make := if create && !found then [MkDirs(rootKey)] else [];
      Setup(w, faults, repo, root, rootKey, create, dirs).world.trace
        == w.trace + [Exists(repo)] + probe + make + MkDirCalls(OkKeys(dirs))
  {
    var probe := if root.Ok? then [IsDirectory(root.value)] else [];
    var found := root.Ok? && IsDirectory(root.value) !in faults && IsDirAt(w.remote, root.value);
    var make := if create && !found then [MkDirs(rootKey)] else [];
    var c := Reach(w, faults, repo);
    var e := DirProbe(c.world, faults, root);
    assert e.world.trace == c.world.trace + probe by {
      if root.Ok? {
        assert e.world.trace == DoIsDirectory(c.world, faults, root.value).world.trace;
      }
    }
    var mkdirs := !e.result.value && create;
    assert mkdirs == (create && !found);
    var m := if mkdirs then DoMkDirs(e.world, faults, rootKey) else Ret(e.world, Ok(()));
    InitRootStep(e.world, faults, rootKey, mkdirs);
    assert m.world.trace == e.world.trace + make;
    var f := MakeDirs(m.world, faults, dirs);
    MakeDirsLog(m.world, faults, dirs);
    assert Setup(w, faults, repo, root, rootKey, create, dirs).world == f.world;
  }

  /** `Setup` logs no `mkdirs` unless asked to create and the root probe failed. */
  lemma SetupTrace(w: World, faults: set<Call>, repo: Key, root: Result<Key>, rootKey: Key, create: bool,
                   dirs: seq<Result<Key>>)
    ensures var r := Setup(w, faults, repo, root, rootKey, create, dirs);
      && (!create ==> NoMkDirs(w.trace, r.world.trace))
      && (root.Ok? && IsDirectory(root.value) !in faults && IsDirAt(w.remote, root.value)
          ==> NoMkDirs(w.trace, r.world.trace))
  {
    var c := Reach(w, faults, repo);
    NoMkDirsStep(w.trace, Exists(repo));
    if c.result.Ok? {
      var e := DirProbe(c.world, faults, root);
      if e.world.trace == c.world.trace {
        assert NoMkDirs(w.trace, e.world.trace);
      } else {
        NoMkDirsStep(c.world.trace, IsDirectory(root.value));
        NoMkDirsTrans(w.trace, c.world.trace, e.world.trace);
      }
      var mkdirs := !e.result.value && create;
      var m := if mkdirs then DoMkDirs(e.world, faults, rootKey) else Ret(e.world, Ok(()));
      InitRootStep(e.world, faults, rootKey, mkdirs);
      if m.result.Ok? && !mkdirs {
        var f := MakeDirs(m.world, faults, dirs);
        NoMkDirsTrans(w.trace, e.world.trace, f.world.trace);
      }
    }
  }

  /**
   A successful `Setup` ends its trace with a `mkdir` of each of `dirs`, in
   order, after which the first directory's parent is a directory.
   */
  lemma SetupEnds(w: World, faults: set<Call>, repo: Key, root: Result<Key>, rootKey: Key, create: bool,
                  dirs: seq<Result<Key>>)
    requires Setup(w, faults, repo, root, rootKey, create, dirs).result.Ok?
    ensures var r := Setup(w, faults, repo, root, rootKey, create, dirs);
      && EndsWith(r.world.trace, MkDirCalls(OkKeys(dirs)))
      && (|dirs| > 0 ==> |dirs[0].value| > 0 && IsDirAt(r.world.remote, Parent(dirs[0].value)))
  {
    var c := Reach(w, faults, repo);
    var e := DirProbe(c.world, faults, root);
    var mkdirs := !e.result.value && create;
    var m := if mkdirs then DoMkDirs(e.world, faults, rootKey) else Ret(e.world, Ok(()));
    InitRootStep(e.world, faults, rootKey, mkdirs);
    var f := MakeDirs(m.world, faults, dirs);
    assert Setup(w, faults, repo, root, rootKey, create, dirs).world == f.world;
    MakeDirsEnds(m.world, faults, dirs);
  }

  /** A successful `MakeDirs` ends with its `mkdir`s and leaves the first directory's parent a directory. */
  lemma MakeDirsEnds(w: World, faults: set<Call>, dirs: seq<Result<Key>>)
    requires MakeDirs(w, faults, dirs).result.Ok?
    ensures var r := MakeDirs(w, faults, dirs);
      && EndsWith(r.world.trace, MkDirCalls(OkKeys(dirs)))
      && (|dirs| > 0 ==> |dirs[0].value| > 0 && IsDirAt(r.world.remote, Parent(dirs[0].value)))
  {
    var r := MakeDirs(w, faults, dirs);
    MakeDirsLog(w, faults, dirs);
    var calls := MkDirCalls(OkKeys(dirs));
    assert (w.trace + calls)[|w.trace|..] == calls;
    if |dirs| > 0 {
      var p := Parent(dirs[0].value);
      if |p| > 0 {
        assert p in w.remote;
      }
    }
  }

  /** Logging a call other than `mkdirs` keeps a trace free of `mkdirs`. */
  lemma NoMkDirsStep(t: seq<Call>, c: Call)
    requires !c.MkDirs?
    ensures NoMkDirs(t, t + [c])
  {
    assert (t + [c])[..|t|] == t;
  }

  /**
   `init`: connect (its failure escapes unchanged); then, when the target is not
   a directory and `createIfRequired` holds, `mkdirs` the root; then create the
   five category folders; `disconnect` runs in any case.
   */
  function Init(sess: Session, w: World, faults: set<Call>, createIfRequired: bool): (r: Ret<()>)
    ensures r.world.local == w.local
    ensures OnlyAddsDirs(w.remote, r.world.remote)
    ensures Exists(RepoKey(sess)) in faults ==> r.result == Err(StorageException) && r.world.remote == w.remote
  {
    var dirs := FolderAddresses(sess);
    Setup(w, faults, RepoKey(sess), RootAddress(sess), RootKey(sess), createIfRequired, dirs)
  }

  /** `init` fails only with a storage error, or because the configured path is not a legal address. */
  lemma InitFailure(sess: Session, w: World, faults: set<Call>, createIfRequired: bool)
    requires Init(sess, w, faults, createIfRequired).result.Err?
    ensures var e := Init(sess, w, faults, createIfRequired).result.failure;
      e == StorageException || (e == IllegalArgument && !SyntaxOk(RootRest(sess)))
  {
    var dirs := FolderAddresses(sess);
    var s := Setup(w, faults, RepoKey(sess), RootAddress(sess), RootKey(sess), createIfRequired, dirs);
    assert Init(sess, w, faults, createIfRequired) == s;
    if s.result.failure != StorageException {
      var i :| 0 <= i < |dirs| && dirs[i] == Err(s.result.failure);
      FolderAddressAt(sess, i);
    }
  }

  /** A successful `init` has created each category folder: new, and now a directory. */
  lemma InitCreatesFolders(sess: Session, w: World, faults: set<Call>, createIfRequired: bool, c: FileClass)
    requires Init(sess, w, faults, createIfRequired).result.Ok? && IsCategory(c)
    ensures var r := Init(sess, w, faults, createIfRequired);
      && FolderKey(sess, c) !in w.remote
      && FolderKey(sess, c) in r.world.remote
      && r.world.remote[FolderKey(sess, c)] == Dir
  {
    var dirs := FolderAddresses(sess);
    var s := Setup(w, faults, RepoKey(sess), RootAddress(sess), RootKey(sess), createIfRequired, dirs);
    assert Init(sess, w, faults, createIfRequired) == s;
    var i := CategoryIndex(c);
    assert dirs[i].Ok?;
    FolderAddressAt(sess, i);
  }

  /** Where a category sits in `Categories`. */
  function CategoryIndex(c: FileClass): (i: nat)
    requires IsCategory(c)
    ensures i < |Categories| && Categories[i] == c
  {
    match c
    case Multichunk => 0
    case Database => 1
    case Action => 2
    case Transaction => 3
    case Temp => 4
  }

  /**
   What `init` logs: the root `mkdirs` only when `createIfRequired` holds and
   the root is not already a reachable directory; on success a legal root that
   is now a directory.
   */
  lemma InitTrace(sess: Session, w: World, faults: set<Call>, createIfRequired: bool)
    ensures var r := Init(sess, w, faults, createIfRequired);
      && (!createIfRequired ==> NoMkDirs(w.trace, r.world.trace))
      && (SyntaxOk(RootRest(sess)) && IsDirectory(RootKey(sess)) !in faults && IsDirAt(w.remote, RootKey(sess))
          ==> NoMkDirs(w.trace, r.world.trace))
      && (r.result.Ok? ==> SyntaxOk(RootRest(sess)) && IsDirAt(r.world.remote, RootKey(sess)))
  {
    var dirs := FolderAddresses(sess);
    SetupTrace(w, faults, RepoKey(sess), RootAddress(sess), RootKey(sess), createIfRequired, dirs);
    var s := Setup(w, faults, RepoKey(sess), RootAddress(sess), RootKey(sess), createIfRequired, dirs);
    if s.result.Ok? {
      SetupEnds(w, faults, RepoKey(sess), RootAddress(sess), RootKey(sess), createIfRequired, dirs);
      assert dirs[0].Ok?;
      FolderAddressAt(sess, 0);
      FolderParentIsRoot(sess, Categories[0]);
    }
  }

  /** The category folders, in order. */
  function FolderKeys(sess: Session): (r: seq<Key>)
    ensures |r| == |Categories|
    ensures forall i :: 0 <= i < |Categories| ==> r[i] == FolderKey(sess, Categories[i])
  {
    KeysOf(sess, Categories)
  }

  /** The folder locations of the classes `cs`, in order. */
  function KeysOf(sess: Session, cs: seq<FileClass>): (r: seq<Key>)
    ensures |r| == |cs|
    ensures forall i :: 0 <= i < |cs| ==> r[i] == FolderKey(sess, cs[i])
    decreases |cs|
  {
    if |cs| == 0 then []
    else
      var rest := KeysOf(sess, cs[1..]);
      assert forall i :: 1 <= i < |cs| ==> cs[i] == cs[1..][i - 1];
      [FolderKey(sess, cs[0])] + rest
  }

  /** A successful `init` ends its trace with a `mkdir` of each category folder, in category order. */
  lemma InitMakesFolders(sess: Session, w: World, faults: set<Call>, createIfRequired: bool)
    requires Init(sess, w, faults, createIfRequired).result.Ok?
    ensures EndsWith(Init(sess, w, faults, createIfRequired).world.trace, MkDirCalls(FolderKeys(sess)))
  {
    var dirs := FolderAddresses(sess);
    var s := Setup(w, faults, RepoKey(sess), RootAddress(sess), RootKey(sess), createIfRequired, dirs);
    assert Init(sess, w, faults, createIfRequired) == s;
    assert dirs[0].Ok?;
    FolderAddressAt(sess, 0);
    FolderAddressesOk(sess);
    SetupEndsWith(w, faults, RepoKey(sess), RootAddress(sess), RootKey(sess), createIfRequired, dirs, FolderKeys(sess));
  }

  /** `t` ends with the calls `calls`. */
  predicate EndsWith(t: seq<Call>, calls: seq<Call>) {
    |t| >= |calls| && t[|t| - |calls|..] == calls
  }

  lemma SetupEndsWith(w: World, faults: set<Call>, repo: Key, root: Result<Key>, rootKey: Key, create: bool,
                      dirs: seq<Result<Key>>, keys: seq<Key>)
    requires Setup(w, faults, repo, root, rootKey, create, dirs).result.Ok?
    requires OkKeys(dirs) == keys
    ensures EndsWith(Setup(w, faults, repo, root, rootKey, create, dirs).world.trace, MkDirCalls(keys))
  {
    SetupEnds(w, faults, repo, root, rootKey, create, dirs);
  }

  /** With a legal root address every folder address resolves to its category folder. */
  lemma FolderAddressesOk(sess: Session)
    requires SyntaxOk(RootRest(sess))
    ensures OkKeys(FolderAddresses(sess)) == FolderKeys(sess)
  {
    var dirs := FolderAddresses(sess);
    var a := OkKeys(dirs);
    var b := FolderKeys(sess);
    forall i | 0 <= i < |Categories| ensures a[i] == b[i] {
      FolderAddressAt(sess, i);
      assert dirs[i] == Ok(FolderKey(sess, Categories[i]));
    }
    assert |a| == |b|;
  }

  /** The root step of `init` only adds directories, never removes what was there, and logs at most a `mkdirs`. */
  lemma InitRootStep(w: World, faults: set<Call>, k: Key, create: bool)
    ensures var m := if create then DoMkDirs(w, faults, k) else Ret(w, Ok(()));
      && m.world.local == w.local
      && OnlyAddsDirs(w.remote, m.world.remote)
      && (!create ==> m.world == w)
      && (create ==> m.world.trace == w.trace + [MkDirs(k)])
  {
    if create && MkDirs(k) !in faults && MkDirsAt(w.remote, k).Some? {
      MkDirsAtGrows(w.remote, k);
    }
  }

  /** A category folder's parent is the root. */
  lemma FolderParentIsRoot(sess: Session, c: FileClass)
    requires IsCategory(c)
    ensures |FolderKey(sess, c)| > 0 && Parent(FolderKey(sess, c)) == RootKey(sess)
  {
    FolderKeyShape(sess, c);
  }

  /** Once `Setup` has made its directories, running it again on a working share fails. */
  lemma SetupTwiceFails(w: World, faults: set<Call>, repo: Key, root: Result<Key>, rootKey: Key, create: bool,
                        dirs: seq<Result<Key>>, again: bool)
    requires |dirs| > 0
    requires Setup(w, faults, repo, root, rootKey, create, dirs).result.Ok?
    ensures var w' := Setup(w, faults, repo, root, rootKey, create, dirs).world;
      Setup(w', {}, repo, root, rootKey, again, dirs).result == Err(StorageException)
  {
    var w' := Setup(w, faults, repo, root, rootKey, create, dirs).world;
    var c := Reach(w', {}, repo);
    var e := DirProbe(c.world, {}, root);
    var mkdirs := !e.result.value && again;
    var m := if mkdirs then DoMkDirs(e.world, {}, rootKey) else Ret(e.world, Ok(()));
    InitRootStep(e.world, {}, rootKey, mkdirs);
    if m.result.Ok? {
      assert dirs[0].value in m.world.remote;
      assert MakeDirs(m.world, {}, dirs).result == Err(StorageException);
    }
  }

  /**
   `init` is not idempotent: once it has succeeded, running it again on a
   working share fails, because `mkdir` of an existing folder fails.
   */
  lemma InitTwiceFails(sess: Session, w: World, faults: set<Call>, createIfRequired: bool, again: bool)
    requires Init(sess, w, faults, createIfRequired).result.Ok?
    ensures var w' := Init(sess, w, faults, createIfRequired).world;
      Init(sess, w', {}, again).result == Err(StorageException)
  {
    SetupTwiceFails(w, faults, RepoKey(sess), RootAddress(sess), RootKey(sess), createIfRequired,
      FolderAddresses(sess), again);
  }

  /** Making distinct, absent children of a directory succeeds on a working share. */
  lemma {:induction false} MakeDirsSucceeds(w: World, dirs: seq<Result<Key>>, p: Key)
    requires IsDirAt(w.remote, p)
    requires forall i :: 0 <= i < |dirs| ==>
      dirs[i].Ok? && |dirs[i].value| > 0 && Parent(dirs[i].value) == p && dirs[i].value !in w.remote
    requires forall i, j :: 0 <= i < j < |dirs| ==> dirs[i] != dirs[j]
    ensures MakeDirs(w, {}, dirs).result.Ok?
    decreases |dirs|
  {
    if |dirs| > 0 {
      var k := dirs[0].value;
      var m := DoMkDir(w, {}, k);
      assert m.result.Ok? && m.world.remote == w.remote[k := Dir];
      var rest := dirs[1..];
      forall i | 0 <= i < |rest| ensures rest[i].value !in m.world.remote {
        assert rest[i] == dirs[i + 1] && dirs[0] != dirs[i + 1];
      }
      MakeDirsSucceeds(m.world, rest, p);
    }
  }

  /** With a directory at the root, `Setup` of distinct, absent children of it succeeds on a working share. */
  lemma SetupSucceeds(w: World, repo: Key, root: Key, create: bool, dirs: seq<Result<Key>>)
    requires IsDirAt(w.remote, root)
    requires forall i :: 0 <= i < |dirs| ==>
      dirs[i].Ok? && |dirs[i].value| > 0 && Parent(dirs[i].value) == root && dirs[i].value !in w.remote
    requires forall i, j :: 0 <= i < j < |dirs| ==> dirs[i] != dirs[j]
    ensures Setup(w, {}, repo, Ok(root), root, create, dirs).result.Ok?
  {
    var c := Reach(w, {}, repo);
    var e := DirProbe(c.world, {}, Ok(root));
    assert e.result.value;
    MakeDirsSucceeds(e.world, dirs, root);
  }

  /** The category folders' names are pairwise distinct. */
  lemma DirNamesDistinct(i: nat, j: nat)
    requires i < j < |Categories|
    ensures DirName(Categories[i]) != DirName(Categories[j])
  {
    FolderInjective(Categories[i], Categories[j]);
  }

  /** Every entry of `Categories` is a category, found again by `CategoryIndex`. */
  lemma CategoryAt(i: nat)
    requires i < |Categories|
    ensures IsCategory(Categories[i]) && CategoryIndex(Categories[i]) == i
  {
  }

  /** With a legal root address, each category folder's address is the root's child named after it. */
  lemma FolderAddressesShape(sess: Session)
    requires SyntaxOk(RootRest(sess))
    ensures forall c :: IsCategory(c) ==>
      FolderAddresses(sess)[CategoryIndex(c)] == Ok(RootKey(sess) + [DirName(c)])
  {
    forall c | IsCategory(c)
      ensures FolderAddresses(sess)[CategoryIndex(c)] == Ok(RootKey(sess) + [DirName(c)])
    {
      FolderAddressAt(sess, CategoryIndex(c));
      FolderKeyShape(sess, c);
    }
  }

  /** `Setup` of the category folders below a root directory that lacks them succeeds on a working share. */
  lemma SetupOnFolders(w: World, repo: Key, root: Key, create: bool, dirs: seq<Result<Key>>)
    requires IsDirAt(w.remote, root) && |dirs| == |Categories|
    requires forall c :: IsCategory(c) ==> dirs[CategoryIndex(c)] == Ok(root + [DirName(c)])
    requires forall c :: IsCategory(c) ==> root + [DirName(c)] !in w.remote
    ensures Setup(w, {}, repo, Ok(root), root, create, dirs).result.Ok?
  {
    forall i | 0 <= i < |dirs|
      ensures dirs[i] == Ok(root + [DirName(Categories[i])]) && dirs[i].value !in w.remote
    {
      CategoryAt(i);
    }
    forall i, j | 0 <= i < j < |dirs| ensures dirs[i] != dirs[j] {
      DirNamesDistinct(i, j);
      assert dirs[i].value[|root|] != dirs[j].value[|root|];
    }
    forall i | 0 <= i < |dirs| ensures |dirs[i].value| > 0 && Parent(dirs[i].value) == root {
      assert dirs[i].value[..|root|] == root;
    }
    SetupSucceeds(w, repo, root, create, dirs);
  }

  /**
   `init` succeeds on a working share whose root is a directory holding none of
   the category folders, whatever `createIfRequired` says.
   */
  lemma InitSucceeds(sess: Session, w: World, createIfRequired: bool)
    requires SyntaxOk(RootRest(sess)) && IsDirAt(w.remote, RootKey(sess))
    requires forall c :: IsCategory(c) ==> RootKey(sess) + [DirName(c)] !in w.remote
    ensures Init(sess, w, {}, createIfRequired).result.Ok?
  {
    var dirs := FolderAddresses(sess);
    FolderAddressesShape(sess);
    SetupOnFolders(w, RepoKey(sess), RootKey(sess), createIfRequired, dirs);
    assert Init(sess, w, {}, createIfRequired)
        == Setup(w, {}, RepoKey(sess), RootAddress(sess), RootKey(sess), createIfRequired, dirs);
  }

  // ---------------------------------------------------------------------------
  // download

  /**
   Copying a remote file to a local path: the bytes go to a fresh local
   temporary file first, then the destination is deleted and the temporary
   file moved there. A failed remote read leaves the destination untouched.
   */
  function Fetch(w: World, faults: set<Call>, src: Result<Key>, localPath: string, tempFile: string): (r: Ret<()>)
    requires src.Err? ==> src.failure == IllegalArgument
    ensures r.world.remote == w.remote
    ensures |r.world.trace| > |w.trace|
    ensures r.result.Err? ==>
      r.result.failure == StorageException || r.result.failure == StorageFileNotFound || r.result.failure == IllegalArgument
    ensures r.result == Err(IllegalArgument) ==> src.Err?
    ensures r.result == Err(StorageFileNotFound) ==>
      src.Ok? && (Open(src.value) in faults || !IsFileAt(w.remote, src.value))
    ensures r.result.Err? && r.result.failure != StorageException ==>
      r.world.local - {tempFile} == w.local - {tempFile}
    ensures r.result.Ok? ==>
      && src.Ok?
      && tempFile != localPath
      && IsFileAt(w.remote, src.value)
      && r.world.local == w.local[localPath := w.remote[src.value].content]
    ensures (&& faults == {} && tempFile !in w.local && tempFile != localPath
             && src.Ok? && IsFileAt(w.remote, src.value))
      ==> r.result.Ok?
    ensures (&& src.Ok? && CreateTemp(tempFile) !in faults && tempFile !in w.local
             && (Open(src.value) in faults || !IsFileAt(w.remote, src.value)))
      ==> r.result == Err(StorageFileNotFound) && r.world.local - {tempFile} == w.local - {tempFile}
  {
    var t := DoCreateTemp(w, faults, tempFile);
    if t.result.Err? then t
    else
      assert t.world.local - {tempFile} == w.local - {tempFile};
      match src
      case Err(e) => Ret(t.world, Err(e))
      case Ok(k) =>
        var rd := DoRead(t.world, faults, k);
        if rd.result.Err? then Ret(rd.world, Err(StorageFileNotFound))
        else
          var data := rd.result.value;
          var w1 := rd.world.(local := rd.world.local[tempFile := data]);
          var w2 := DoDeleteLocal(w1, faults, localPath);
          var mv := DoMoveLocal(w2, faults, tempFile, localPath);
          if mv.result.Err? then Ret(mv.world, Err(StorageException))
          else
            var w3 := DoDeleteLocal(mv.world, faults, tempFile);
            assert w3.local == w.local[localPath := data] by {
              DownloadLocal(w.local, tempFile, localPath, data);
            }
            Ret(w3, Ok(()))
  }

  /** The local disk after a successful download: only the destination changes. */
  lemma DownloadLocal(l: Local, t: string, p: string, data: seq<byte>)
    requires t !in l && t != p
    ensures (((l[t := []][t := data] - {p}) - {t})[p := data]) - {t} == l[p := data]
  {
    var lhs := (((l[t := []][t := data] - {p}) - {t})[p := data]) - {t};
    assert lhs.Keys == l[p := data].Keys;
  }

  /**
   `download`: a name of "." is skipped; otherwise the file's bytes replace the
   local file. `tempFile` stands for the temporary file the unseen superclass
   creates. A failed remote read leaves the local file untouched.
   */
  function Download(sess: Session, w: World, faults: set<Call>, f: RemoteFile, localPath: string, tempFile: string)
    : (r: Ret<()>)
    ensures r.world.remote == w.remote
    ensures f.name == "." ==> r == Ret(w, Ok(()))
    ensures f.name != "." ==> |r.world.trace| > |w.trace|
    ensures r.result.Err? ==>
      r.result.failure == StorageException || r.result.failure == StorageFileNotFound || r.result.failure == IllegalArgument
    ensures r.result == Err(IllegalArgument) ==> !SyntaxOk(FileRest(sess, f))
    ensures r.result == Err(StorageFileNotFound) ==>
      Open(FileKey(sess, f)) in faults || !IsFileAt(w.remote, FileKey(sess, f))
    ensures r.result.Err? && r.result.failure != StorageException ==>
      r.world.local - {tempFile} == w.local - {tempFile}
    ensures r.result.Ok? && f.name != "." ==>
      && tempFile != localPath
      && IsFileAt(w.remote, FileKey(sess, f))
      && r.world.local == w.local[localPath := w.remote[FileKey(sess, f)].content]
    ensures (&& f.name != "." && faults == {} && tempFile !in w.local && tempFile != localPath
             && SyntaxOk(FileRest(sess, f)) && IsFileAt(w.remote, FileKey(sess, f)))
      ==> r.result.Ok?
    ensures (&& f.name != "." && SyntaxOk(FileRest(sess, f))
             && CreateTemp(tempFile) !in faults && tempFile !in w.local
             && (Open(FileKey(sess, f)) in faults || !IsFileAt(w.remote, FileKey(sess, f))))
      ==> r.result == Err(StorageFileNotFound) && r.world.local - {tempFile} == w.local - {tempFile}
    ensures (&& f.name != "." && !SyntaxOk(FileRest(sess, f))
             && CreateTemp(tempFile) !in faults && tempFile !in w.local)
      ==> r.result == Err(IllegalArgument) && r.world.local - {tempFile} == w.local - {tempFile}
  {
    if f.name == "." then Ret(w, Ok(()))
    else Fetch(w, faults, FileAddress(sess, f), localPath, tempFile)
  }

  // ---------------------------------------------------------------------------
  // upload

  /**
   Storing a local file at a resolved location through a temporary one: read
   the local file, write the temporary location, then rename it to the target.
   */
  function Put(w: World, faults: set<Call>, localPath: string, temp: Result<Key>, target: Result<Key>): (r: Ret<()>)
    ensures r.world.local == w.local
    ensures r.result.Err? ==>
      r.result.failure == StorageException || (temp.Err? && r.result == Err(temp.failure)) || (target.Err? && r.result == Err(target.failure))
    ensures r.result.Err? && temp.Ok? ==> AgreeExcept(w.remote, r.world.remote, {temp.value})
    ensures r.result.Err? && temp.Err? ==> r.world.remote == w.remote
    ensures r.result.Ok? ==>
      && temp.Ok? && target.Ok?
      && localPath in w.local
      && target.value !in w.remote
      && temp.value != target.value
      && r.world.remote == (w.remote - {temp.value})[target.value := File(w.local[localPath])]
    ensures r.result.Ok? ==>
      r.world.trace == w.trace + [ReadLocal(localPath), Write(temp.value), Rename(temp.value, target.value)]
  {
    var rd := DoReadLocal(w, faults, localPath);
    if rd.result.Err? then Ret(rd.world, Err(StorageException))
    else
      var data := rd.result.value;
      match temp
      case Err(e) => Ret(rd.world, Err(e))
      case Ok(tk) =>
        var wr := DoWrite(rd.world, faults, tk, data);
        if wr.result.Err? then Ret(wr.world, Err(StorageException))
        else
          match target
          case Err(e) => Ret(wr.world, Err(e))
          case Ok(fk) =>
            var mv := DoRename(wr.world, faults, tk, fk);
            if mv.result.Err? then Ret(mv.world, Err(StorageException))
            else
              assert mv.world.remote == (w.remote - {tk})[fk := File(data)] by {
                RenameAfterWrite(w.remote, tk, fk, data);
              }
              Ret(mv.world, Ok(()))
  }

  /** Writing a location and then renaming it away leaves only the target changed. */
  lemma RenameAfterWrite(st: Remote, a: Key, b: Key, data: seq<byte>)
    requires a != b
    ensures (st[a := File(data)] - {a})[b := st[a := File(data)][a]] == (st - {a})[b := File(data)]
  {
  }

  /** Where `upload` writes first. */
  function TempKey(sess: Session, f: RemoteFile): Key {
    FileKey(sess, TempFor(f))
  }

  /**
   `upload`: read the local file, write it to "temp-" + name at the repository
   root, then rename that to the file's place. On success the share differs
   from before only in that the temporary location is gone and the file is in
   place; a failed upload changes at most the temporary location.
   */
  function Upload(sess: Session, w: World, faults: set<Call>, localPath: string, f: RemoteFile): (r: Ret<()>)
    ensures r.world.local == w.local
    ensures r.result.Err? ==> r.result.failure == StorageException || r.result.failure == IllegalArgument
    ensures r.result == Err(IllegalArgument) ==> !SyntaxOk(FileRest(sess, f))
    ensures r.result.Err? ==> AgreeExcept(w.remote, r.world.remote, {TempKey(sess, f)})
    ensures r.result.Ok? ==>
      && localPath in w.local
      && SyntaxOk(FileRest(sess, f))
      && FileKey(sess, f) !in w.remote
      && TempKey(sess, f) != FileKey(sess, f)
      && r.world.remote == (w.remote - {TempKey(sess, f)})[FileKey(sess, f) := File(w.local[localPath])]
    ensures r.result.Ok? ==>
      r.world.trace == w.trace + [ReadLocal(localPath), Write(TempKey(sess, f)), Rename(TempKey(sess, f), FileKey(sess, f))]
    ensures !SyntaxOk(FileRest(sess, f)) && ReadLocal(localPath) !in faults && localPath in w.local ==>
      r.result == Err(IllegalArgument) && r.world.remote == w.remote
  {
    TempRestSyntax(sess, f);
    Put(w, faults, localPath, FileAddress(sess, TempFor(f)), FileAddress(sess, f))
  }

  /**
   An upload succeeds on a working share when the file's address is legal, its
   name plain, its folder and the root are directories, nothing is at its place
   and no directory is at the temporary location.
   */
  lemma UploadSucceeds(sess: Session, w: World, localPath: string, f: RemoteFile)
    requires localPath in w.local && IsPlain(f.name) && SyntaxOk(FileRest(sess, f))
    requires IsDirAt(w.remote, RootKey(sess)) && IsDirAt(w.remote, FolderKey(sess, f.cls))
    requires FileKey(sess, f) !in w.remote && !IsDirAt(w.remote, TempKey(sess, f))
    ensures Upload(sess, w, {}, localPath, f).result.Ok?
  {
    var tk := TempKey(sess, f);
    var fk := FileKey(sess, f);
    TempRestSyntax(sess, f);
    TempKeyAtRoot(sess, f);
    FileKeyUnderFolder(sess, f);
    assert tk != fk by {
      if !IsCategory(f.cls) {
        FolderKeyShape(sess, f.cls);
        assert |"temp-" + f.name| != |f.name|;
        assert tk[|tk| - 1] != fk[|fk| - 1];
      }
    }
    PutSucceeds(w, localPath, tk, fk);
  }

  /** The store-level half of `UploadSucceeds`. */
  lemma PutSucceeds(w: World, localPath: string, tk: Key, fk: Key)
    requires localPath in w.local && tk != fk
    requires |tk| > 0 && IsDirAt(w.remote, Parent(tk)) && !IsDirAt(w.remote, tk)
    requires |fk| > 0 && IsDirAt(w.remote, Parent(fk)) && fk !in w.remote
    ensures Put(w, {}, localPath, Ok(tk), Ok(fk)).result.Ok?
  {
    var rd := DoReadLocal(w, {}, localPath);
    var wr := DoWrite(rd.world, {}, tk, rd.result.value);
    assert wr.result.Ok?;
    assert IsDirAt(wr.world.remote, Parent(fk));
  }

  /** What was uploaded downloads back: a fresh download returns the uploaded bytes. */
  lemma UploadThenDownload(sess: Session, w: World, faults: set<Call>, src: string, f: RemoteFile, dst: string, tempFile: string)
    requires Upload(sess, w, faults, src, f).result.Ok?
    requires f.name != "."
    requires tempFile !in w.local && tempFile != dst
    ensures var w' := Upload(sess, w, faults, src, f).world;
      var d := Download(sess, w', {}, f, dst, tempFile);
      d.result.Ok? && d.world.local[dst] == w.local[src]
  {
  }

  // ---------------------------------------------------------------------------
  // delete

  /** Deleting at a resolved location: answers true; a failing call is a `StorageException`. */
  function Remove(w: World, faults: set<Call>, at: Result<Key>): (r: Ret<bool>)
    ensures r.world.local == w.local
    ensures r.result.Ok? ==> r.result.value
    ensures r.result.Ok? <==> at.Ok? && Call.Delete(at.value) !in faults && at.value in w.remote
    ensures r.result.Ok? ==> r.world.remote == w.remote - {at.value}
    ensures r.result.Err? ==> r.world.remote == w.remote
    ensures r.result.Err? ==> r.result.failure == if at.Ok? then StorageException else at.failure
  {
    match at
    case Err(e) => Ret(w, Err(e))
    case Ok(k) =>
      var d := DoDelete(w, faults, k);
      if d.result.Err? then Ret(d.world, Err(StorageException))
      else Ret(d.world, Ok(true))
  }

  /** `delete`: removes the file and answers true; a refused address escapes, a failing call is a `StorageException`. */
  function Delete(sess: Session, w: World, faults: set<Call>, f: RemoteFile): (r: Ret<bool>)
    ensures r.world.local == w.local
    ensures r.result.Ok? ==> r.result.value
    ensures r.result.Ok? <==>
      SyntaxOk(FileRest(sess, f)) && Call.Delete(FileKey(sess, f)) !in faults && FileKey(sess, f) in w.remote
    ensures r.result.Ok? ==> r.world.remote == w.remote - {FileKey(sess, f)}
    ensures r.result.Err? ==> r.world.remote == w.remote
    ensures r.result.Err? ==>
      r.result.failure == (if SyntaxOk(FileRest(sess, f)) then StorageException else IllegalArgument)
  {
    Remove(w, faults, FileAddress(sess, f))
  }

  // ---------------------------------------------------------------------------
  // move

  /**
   Renaming between resolved locations: a refused address becomes a
   `StorageException`, a failing rename a `StorageMoveException`; a failed
   rename changes nothing on the share.
   */
  function Relocate(w: World, faults: set<Call>, a: Result<Key>, b: Result<Key>): (r: Ret<()>)
    ensures r.world.local == w.local
    ensures r.result.Err? ==> r.world.remote == w.remote
    ensures r.result.Err? ==> r.result.failure == if a.Ok? && b.Ok? then StorageMove else StorageException
    ensures r.result.Ok? <==>
      && a.Ok? && b.Ok?
      && Rename(a.value, b.value) !in faults
      && a.value in w.remote && Creatable(w.remote, b.value)
    ensures r.result.Ok? ==> r.world.remote == (w.remote - {a.value})[b.value := w.remote[a.value]]
  {
    if a.Err? || b.Err? then Ret(w, Err(StorageException))
    else
      var mv := DoRename(w, faults, a.value, b.value);
      if mv.result.Err? then Ret(mv.world, Err(StorageMove))
      else Ret(mv.world, Ok(()))
  }

  /**
   `move`: rename the source to the target. A failing rename is a
   `StorageMoveException`; a refused address becomes a `StorageException`.
   A failed move changes nothing on the share.
   */
  function Move(sess: Session, w: World, faults: set<Call>, a: RemoteFile, b: RemoteFile): (r: Ret<()>)
    ensures r.world.local == w.local
    ensures r.result.Err? ==> r.world.remote == w.remote
    ensures r.result.Err? ==>
      r.result.failure == (if SyntaxOk(FileRest(sess, a)) && SyntaxOk(FileRest(sess, b)) then StorageMove else StorageException)
    ensures r.result.Ok? <==>
      && SyntaxOk(FileRest(sess, a)) && SyntaxOk(FileRest(sess, b))
      && Rename(FileKey(sess, a), FileKey(sess, b)) !in faults
      && FileKey(sess, a) in w.remote && Creatable(w.remote, FileKey(sess, b))
    ensures r.result.Ok? ==>
      r.world.remote == (w.remote - {FileKey(sess, a)})[FileKey(sess, b) := w.remote[FileKey(sess, a)]]
  {
    Relocate(w, faults, FileAddress(sess, a), FileAddress(sess, b))
  }

  /** On a tree-shaped share, renaming and renaming back on a working share restores the share. */
  lemma RelocateBack(w: World, faults: set<Call>, ka: Key, kb: Key)
    requires WellFormed(w.remote)
    requires Relocate(w, faults, Ok(ka), Ok(kb)).result.Ok?
    ensures var w' := Relocate(w, faults, Ok(ka), Ok(kb)).world;
      var back := Relocate(w', {}, Ok(kb), Ok(ka));
      back.result.Ok? && back.world.remote == w.remote
  {
    var st := w.remote;
    var st' := (st - {ka})[kb := st[ka]];
    assert ka != kb;
    assert |ka| > 0 && IsDirAt(st, Parent(ka));
    assert Parent(ka) != kb;
    assert Creatable(st', ka);
    assert (st' - {kb})[ka := st'[kb]] == st;
  }

  /** On a tree-shaped share, moving a file and moving it back on a working share restores the share. */
  lemma MoveBack(sess: Session, w: World, faults: set<Call>, a: RemoteFile, b: RemoteFile)
    requires WellFormed(w.remote)
    requires Move(sess, w, faults, a, b).result.Ok?
    ensures var w' := Move(sess, w, faults, a, b).world;
      var back := Move(sess, w', {}, b, a);
      back.result.Ok? && back.world.remote == w.remote
  {
    RelocateBack(w, faults, FileKey(sess, a), FileKey(sess, b));
  }

  // ---------------------------------------------------------------------------
  // list

  /**
   The names `list` reports for a class: the entries of the class's folder
   whose typed construction succeeds. `accepts` stands for the remote-file
   classes' name patterns, which are not part of this model.
   */
  function Listed(st: Remote, k: Key, cls: FileClass, accepts: (FileClass, string) -> bool): set<string> {
    set n | n in Children(st, k) && accepts(cls, n)
  }

  /** Builds the typed files of the accepted names, keyed by name. */
  method Collect(names: set<string>, cls: FileClass, accepts: (FileClass, string) -> bool)
    returns (found: map<string, RemoteFile>)
    ensures found.Keys == set n | n in names && accepts(cls, n)
    ensures forall n :: n in found ==> found[n] == RemoteFile(cls, n)
  {
    var todo := names;
    found := map[];
    while todo != {}
      invariant todo <= names
      invariant found.Keys == set n | n in names - todo && accepts(cls, n)
      invariant forall n :: n in found ==> found[n] == RemoteFile(cls, n)
      decreases |todo|
    {
      var n :| n in todo;
      if accepts(cls, n) {
        found := found[n := RemoteFile(cls, n)];
      }
      todo := todo - {n};
    }
  }

  /**
   `list`: every entry of the class's folder whose typed construction succeeds,
   keyed by its name; other entries are skipped. Only a refused address or a
   failure to list the folder is an error.
   */
  method List(sess: Session, w: World, faults: set<Call>, cls: FileClass, accepts: (FileClass, string) -> bool)
    returns (r: Ret<map<string, RemoteFile>>)
    ensures r.world.remote == w.remote && r.world.local == w.local
    ensures r.result.Ok? <==>
      SyntaxOk(RootRest(sess)) && ListFiles(FolderKey(sess, cls)) !in faults && IsDirAt(w.remote, FolderKey(sess, cls))
    ensures r.result.Err? ==>
      r.result.failure == (if SyntaxOk(RootRest(sess)) then StorageException else IllegalArgument)
    ensures r.result.Ok? ==> r.result.value.Keys == Listed(w.remote, FolderKey(sess, cls), cls, accepts)
    ensures r.result.Ok? ==> forall n :: n in r.result.value ==> r.result.value[n] == RemoteFile(cls, n)
  {
    FolderDirSyntax(sess, cls);
    var folder := FileAddress(sess, FolderDir(cls));
    if folder.Err? {
      return Ret(w, Err(folder.failure));
    }
    var ls := DoListFiles(w, faults, folder.value);
    if ls.result.Err? {
      return Ret(ls.world, Err(StorageException));
    }
    var found := Collect(ls.result.value, cls, accepts);
    return Ret(ls.world, Ok(found));
  }

  // ---------------------------------------------------------------------------
  // Listings across operations

  /** A removed entry whose name has no '/' is not among its parent's children. */
  lemma RemovedNotListed(st: Remote, k: Key, name: string)
    requires '/' !in name
    ensures name !in Children(st - {k + [name]}, k)
  {
    var st' := st - {k + [name]};
    forall c | c in st' && |c| == |k| + 1 && c[..|k|] == k
      ensures EntryName(c[|k|], st'[c]) != name
    {
      var e := EntryName(c[|k|], st'[c]);
      if st'[c].Dir? {
        assert e[|e| - 1] == '/';
        assert '/' in e;
      } else {
        assert c == k + [c[|k|]];
      }
    }
  }

  /** An added file whose name has no '/' is among its parent's children under that name. */
  lemma AddedListed(st: Remote, k: Key, name: string, data: seq<byte>)
    ensures name in Children(st[k + [name] := File(data)], k)
  {
    var st' := st[k + [name] := File(data)];
    var c := k + [name];
    assert c[..|k|] == k && c[|k|] == name;
    assert EntryName(c[|k|], st'[c]) == name;
  }

  /** Removing one key and setting another leaves the children of a third key alone when neither is its child. */
  lemma OtherChildrenKept(st: Remote, k: Key, a: Key, b: Key, v: Node)
    requires !(|a| == |k| + 1 && a[..|k|] == k)
    requires !(|b| == |k| + 1 && b[..|k|] == k)
    ensures Children((st - {a})[b := v], k) == Children(st, k)
  {
    var st' := (st - {a})[b := v];
    forall n | n in Children(st, k) ensures n in Children(st', k) {
      var c :| c in st && |c| == |k| + 1 && c[..|k|] == k && EntryName(c[|k|], st[c]) == n;
      assert c in st' && st'[c] == st[c];
    }
    forall n | n in Children(st', k) ensures n in Children(st, k) {
      var c :| c in st' && |c| == |k| + 1 && c[..|k|] == k && EntryName(c[|k|], st'[c]) == n;
      assert c in st && st'[c] == st[c];
    }
  }

  /** After a successful delete, a plainly named file no longer appears in its folder. */
  lemma DeleteUnlists(sess: Session, w: World, faults: set<Call>, f: RemoteFile)
    requires Delete(sess, w, faults, f).result.Ok? && IsPlain(f.name)
    ensures f.name !in Children(Delete(sess, w, faults, f).world.remote, FolderKey(sess, f.cls))
  {
    FileKeyUnderFolder(sess, f);
    RemovedNotListed(w.remote, FolderKey(sess, f.cls), f.name);
  }

  /** After a successful upload, a plainly named file appears in its folder under its own name. */
  lemma UploadLists(sess: Session, w: World, faults: set<Call>, src: string, f: RemoteFile)
    requires Upload(sess, w, faults, src, f).result.Ok? && IsPlain(f.name)
    ensures f.name in Children(Upload(sess, w, faults, src, f).world.remote, FolderKey(sess, f.cls))
  {
    FileKeyUnderFolder(sess, f);
    AddedListed(w.remote - {TempKey(sess, f)}, FolderKey(sess, f.cls), f.name, w.local[src]);
  }

  /** Neither place an upload of a plainly named file writes is a child of another category's folder. */
  lemma UploadKeysOutside(sess: Session, f: RemoteFile, d: FileClass)
    requires IsPlain(f.name) && IsCategory(f.cls) && IsCategory(d) && d != f.cls
    ensures var k := FolderKey(sess, d);
      && !(|TempKey(sess, f)| == |k| + 1 && TempKey(sess, f)[..|k|] == k)
      && !(|FileKey(sess, f)| == |k| + 1 && FileKey(sess, f)[..|k|] == k)
  {
    var k := FolderKey(sess, d);
    var fk := FileKey(sess, f);
    var root := RootKey(sess);
    TempKeyAtRoot(sess, f);
    FileKeyUnderFolder(sess, f);
    FolderKeyShape(sess, d);
    FolderKeyShape(sess, f.cls);
    FolderInjective(f.cls, d);
    assert |TempKey(sess, f)| == |k|;
    assert fk[..|k|] != k by {
      assert fk[|root|] == DirName(f.cls);
      assert k[|root|] == DirName(d);
    }
  }

  /**
   An upload of a plainly named file of one category leaves the listing of every
   other category's folder unchanged.
   */
  lemma UploadIsolated(sess: Session, w: World, faults: set<Call>, src: string, f: RemoteFile, d: FileClass)
    requires Upload(sess, w, faults, src, f).result.Ok? && IsPlain(f.name)
    requires IsCategory(f.cls) && IsCategory(d) && d != f.cls
    ensures Children(Upload(sess, w, faults, src, f).world.remote, FolderKey(sess, d))
         == Children(w.remote, FolderKey(sess, d))
  {
    UploadKeysOutside(sess, f, d);
    OtherChildrenKept(w.remote, FolderKey(sess, d), TempKey(sess, f), FileKey(sess, f), File(w.local[src]));
  }
  /** Removing an entry and setting another place leaves the removed name out of its parent's children. */
  lemma ReplacedNotListed(st: Remote, k: Key, name: string, b: Key, v: Node)
    requires '/' !in name && b != k + [name]
    ensures name !in Children((st - {k + [name]})[b := v], k)
  {
    var st' := (st - {k + [name]})[b := v];
    forall c | c in st' && |c| == |k| + 1 && c[..|k|] == k
      ensures EntryName(c[|k|], st'[c]) != name
    {
      var e := EntryName(c[|k|], st'[c]);
      if st'[c].Dir? {
        assert e[|e| - 1] == '/';
        assert '/' in e;
      } else {
        assert c == k + [c[|k|]];
      }
    }
  }

  /**
   After a successful move of a plainly named file, its old name is gone from
   the source folder and its new name is in the target folder.
   */
  lemma MoveRelists(sess: Session, w: World, faults: set<Call>, a: RemoteFile, b: RemoteFile)
    requires Move(sess, w, faults, a, b).result.Ok? && IsPlain(a.name) && IsPlain(b.name)
    requires w.remote[FileKey(sess, a)].File?
    ensures var st := Move(sess, w, faults, a, b).world.remote;
      && a.name !in Children(st, FolderKey(sess, a.cls))
      && b.name in Children(st, FolderKey(sess, b.cls))
  {
    var ka := FileKey(sess, a);
    var kb := FileKey(sess, b);
    FileKeyUnderFolder(sess, a);
    FileKeyUnderFolder(sess, b);
    var v := w.remote[ka];
    ReplacedNotListed(w.remote, FolderKey(sess, a.cls), a.name, kb, v);
    assert v == File(v.content);
    AddedListed(w.remote - {ka}, FolderKey(sess, b.cls), b.name, v.content);
  }
}

=== FILE: uri.dfy ===
/**
 The part of `java.net.URI` the transfer manager relies on for "smb://" addresses:
 `URI.create` (split into authority and path, or reject), `normalize` (on the
 path only) and `toString`.
 */
module Uri {
  import opened Results
  import opened Paths

  /** A hierarchical "smb://authority/path" URI. */
  datatype Url = Url(authority: string, path: string)

  /**
   Characters refused anywhere in an "smb://" address (an approximation of `URI.create`): space, the
   punctuation it never admits, '[' and ']' (taken as outside a bracketed host),
   the ASCII and ISO control characters, the other Unicode space characters, and
   '?' and '#'. `URI.create` itself reads a first '?' or '#' as the start of a
   query or a fragment and cuts the path there; the model refuses both instead.
   Percent-escapes are not checked.
   */
  predicate IllegalChar(c: char) {
    || c in {' ', '"', '<', '>', '\\', '^', '`', '{', '|', '}', '[', ']', '?', '#'}
    || c as int < 0x20
    || 0x7F <= c as int <= 0xA0
    || c as int == 0x1680
    || 0x2000 <= c as int <= 0x200A
    || 0x2028 <= c as int <= 0x2029
    || c as int == 0x202F
    || c as int == 0x205F
    || c as int == 0x3000
  }

  predicate SyntaxOk(s: string) {
    forall i :: 0 <= i < |s| ==> !IllegalChar(s[i])
  }

  /** The authority runs up to the first '/'; the path is everything from there on. */
  function SplitAuthority(rest: string): (u: Url)
    ensures u.authority + u.path == rest
    ensures '/' !in u.authority
    ensures u.path == [] || u.path[0] == '/'
  {
    var n := SegmentLength(rest);
    assert rest[..n] + rest[n..] == rest;
    Url(rest[..n], rest[n..])
  }

  /** `URI.create("smb://" + rest)`, with its refusals approximated by `IllegalChar`. */
  function Create(rest: string): (r: Result<Url>)
    ensures r.Ok? <==> SyntaxOk(rest)
    ensures r.Err? ==> r.failure == IllegalArgument
    ensures r.Ok? ==> "smb://" + r.value.authority + r.value.path == "smb://" + rest
  {
    if SyntaxOk(rest) then Ok(SplitAuthority(rest)) else Err(IllegalArgument)
  }

  /** `URI.normalize`: the authority is kept, only the path changes. */
  function Normalize(u: Url): (v: Url)
    requires u.path == [] || u.path[0] == '/'
    ensures v.authority == u.authority
    ensures v.path == [] || v.path[0] == '/'
  {
    if |u.path| == 0 then u else u.(path := NormalizePath(u.path))
  }

  function ToString(u: Url): string {
    "smb://" + u.authority + u.path
  }

  /** The legal characters of a concatenation are those of its parts. */
  lemma SyntaxOkAppend(a: string, b: string)
    ensures SyntaxOk(a + b) <==> SyntaxOk(a) && SyntaxOk(b)
  {
    if SyntaxOk(a + b) {
      forall i | 0 <= i < |a| ensures !IllegalChar(a[i]) {
        assert (a + b)[i] == a[i];
      }
      forall i | 0 <= i < |b| ensures !IllegalChar(b[i]) {
        assert (a + b)[|a| + i] == b[i];
      }
    }
    if SyntaxOk(a) && SyntaxOk(b) {
      forall i | 0 <= i < |a + b| ensures !IllegalChar((a + b)[i]) {
        if i < |a| {
          assert (a + b)[i] == a[i];
        } else {
          assert (a + b)[i] == b[i - |a|];
        }
      }
    }
  }

  /** Once the authority has ended, appending only extends the path. */
  lemma SplitAuthorityExtend(a: string, b: string)
    requires SegmentLength(a) < |a|
    ensures SegmentLength(a + b) < |a + b|
    ensures SplitAuthority(a + b) == Url(SplitAuthority(a).authority, SplitAuthority(a).path + b)
  {
    var n := SegmentLength(a);
    SegmentLengthExtend(a, b);
    SliceAppend(a, b, n);
  }

  /** A host name without '/' is the whole authority; otherwise its tail joins the path. */
  lemma SplitAuthorityAppend(host: string, rest: string)
    ensures var n := SegmentLength(host);
      SplitAuthority(host + "/" + rest) == Url(host[..n], host[n..] + "/" + rest)
  {
    var n := SegmentLength(host);
    assert SegmentLength(host + "/" + rest) == n by {
      SegmentLengthAppend(host, rest);
    }
    SliceAppend(host, "/", n);
    SliceAppend(host + "/", rest, n);
  }

  /** Slicing a concatenation inside its first part. */
  lemma SliceAppend(a: string, b: string, n: nat)
    requires n <= |a|
    ensures (a + b)[..n] == a[..n] && (a + b)[n..] == a[n..] + b
  {
  }
}
